=== FILE: README.md ===
# LLM RPA plugin: a Dafny model

This project models the core of the LLM RPA panel plugin: a panel that turns a
natural-language instruction into a list of browser-automation steps by asking
one of several LLM providers. The model covers these parts:

- the provider and model catalog, with its two lookups (`LlmTypes`);
- the settings record and its clamping, key-handling and provider-switching setters (`LlmSettings`);
- the client's decision logic: mock response without a key, provider dispatch, and the catch-all
  that turns every failure into an error response (`LlmApiClient`);
- the response normaliser: greedy first-`{`-to-last-`}` extraction plus the repair response (`LlmApiClient`);
- the generation-history state machine, with completions as separate events that may arrive in any order (`LlmrpaComponent`);
- the pure display helpers (`LlmrpaContent`).

`KotlinStd` holds the Kotlin/JVM library behaviour these rely on. That covers
`isBlank` (with the JVM's whitespace set), `coerceIn`, `Long` wrap-around,
decimal rendering (with an inverse), `indexOf`/`lastIndexOf`, and
`joinToString` (with `Split` as its inverse).

The edges of the system become parameters:

- The one HTTP reply of a call, or the exception thrown while sending it or reading its reply, is an `Exchange` value.
  A reply carries its status, its body and the completion text found in the provider's envelope.
  It also carries `typedBody`, the outcome of the HTTP client's content-negotiated conversion of the body
  to a response, which is what the Custom provider's path returns.
- The normaliser's JSON decoding is a function parameter `decode: string -> DecodeResult`.
- Reading the settings file gives a `SettingsFile` outcome. Writing it is a `writeOk` flag plus a `saved` snapshot.
- Clock readings are passed in as `now`.

## Model

| member | source | states |
|---|---|---|
| KotlinStd.CoerceIn | src/main/kotlin/ai/rever/boss/plugin/dynamic/llmrpa/LlmSettings.kt:119-122 | `coerceIn` returns the nearest value of [lo, hi]: in-range values unchanged, values below give lo, values above give hi |
| KotlinStd.IsBlank | src/main/kotlin/ai/rever/boss/plugin/dynamic/llmrpa/LlmSettings.kt:84 | `isBlank`: every character is JVM whitespace (the `Character.isWhitespace` set plus the space separators), so the empty string is blank |
| KotlinStd.CoerceInReal | src/main/kotlin/ai/rever/boss/plugin/dynamic/llmrpa/LlmSettings.kt:124-127 | the same clamping on reals for the temperature |
| KotlinStd.WrapLong | src/main/kotlin/ai/rever/boss/plugin/dynamic/llmrpa/LlmrpaContent.kt:769-770 | `Long` subtraction wraps into the 64-bit range and is exact when the true difference fits |
| KotlinStd.NatToStringRoundTrip | src/main/kotlin/ai/rever/boss/plugin/dynamic/llmrpa/LlmrpaContent.kt:774-776 | reading the rendered count back as decimal gives the number itself |
| KotlinStd.NatToString | src/main/kotlin/ai/rever/boss/plugin/dynamic/llmrpa/LlmrpaContent.kt:774-776 | the decimal rendering of a non-negative count is non-empty, all digits, and has no leading zero unless it is "0" |
| KotlinStd.ParseDecimalCanonical | src/main/kotlin/ai/rever/boss/plugin/dynamic/llmrpa/LlmrpaContent.kt:774-776 | a digit string without leading zeros is the rendering of the number it reads as |
| KotlinStd.SplitJoinToString | src/main/kotlin/ai/rever/boss/plugin/dynamic/llmrpa/LlmApiClient.kt:210 | joining newline-free parts with a newline and splitting on newlines gives the parts back |
| LlmTypes.ProviderValueOf | src/main/kotlin/ai/rever/boss/plugin/dynamic/llmrpa/LlmSettings.kt:41-46 | `valueOf` matches exactly one provider's name; no provider has an unknown name |
| LlmTypes.ProviderNameRoundTrip | src/main/kotlin/ai/rever/boss/plugin/dynamic/llmrpa/LlmTypes.kt:8-13 | each provider's name parses back to that provider |
| LlmTypes.ModelsForProvider | src/main/kotlin/ai/rever/boss/plugin/dynamic/llmrpa/LlmTypes.kt:124-129 | Custom gets the empty list; Anthropic, OpenAI and Together get 5, 4 and 3 models; every model returned belongs to the provider asked for |
| LlmTypes.FindById | src/main/kotlin/ai/rever/boss/plugin/dynamic/llmrpa/LlmTypes.kt:132 | `find` returns a model with the id, at a position before which no model has it; it returns null exactly when no model has the id |
| LlmTypes.FindModelById | src/main/kotlin/ai/rever/boss/plugin/dynamic/llmrpa/LlmTypes.kt:131-133 | the result has the queried id, comes from the three catalogs and is never a Custom model; null exactly when no catalog model has the id |
| LlmTypes.CatalogProviders | src/main/kotlin/ai/rever/boss/plugin/dynamic/llmrpa/LlmTypes.kt:103-128 | no catalog entry belongs to Custom, and each provider's list holds only that provider's models |
| LlmTypes.AllModelsIsProviderCatalogs | src/main/kotlin/ai/rever/boss/plugin/dynamic/llmrpa/LlmTypes.kt:103-133 | the searched list is the three provider lists in declaration order, 12 models |
| LlmTypes.CatalogIdsDistinct | src/main/kotlin/ai/rever/boss/plugin/dynamic/llmrpa/LlmTypes.kt:103-122 | catalog ids are pairwise distinct |
| LlmTypes.FindModelByOwnId | src/main/kotlin/ai/rever/boss/plugin/dynamic/llmrpa/LlmTypes.kt:131-133 | every catalog model is found again by its own id |
| LlmTypes.FirstModelFound | src/main/kotlin/ai/rever/boss/plugin/dynamic/llmrpa/LlmTypes.kt:124-133 | each non-Custom provider's first model belongs to it and is found by id |
| LlmTypes.NewSelector | src/main/kotlin/ai/rever/boss/plugin/dynamic/llmrpa/LlmTypes.kt:61-66 | a selector built without `isUnique` is unique |
| LlmTypes.NewActionConfig | src/main/kotlin/ai/rever/boss/plugin/dynamic/llmrpa/LlmTypes.kt:48-56 | a step built without them has action type "default" and null value and meta |
| LlmTypes.NewAction | src/main/kotlin/ai/rever/boss/plugin/dynamic/llmrpa/LlmTypes.kt:18-23 | an instruction built without them has action type "default" and null meta |
| LlmTypes.NewExecutionState | src/main/kotlin/ai/rever/boss/plugin/dynamic/llmrpa/LlmTypes.kt:71-77 | a fresh record has no actions and no error |
| LlmSettings.DefaultsValues | src/main/kotlin/ai/rever/boss/plugin/dynamic/llmrpa/LlmSettings.kt:11-22 | the defaults are: Anthropic, model "claude-3-5-sonnet-20240620" (a catalog entry), 4096 tokens, temperature 0.7, all values in range |
| LlmSettings.DefaultsHaveNoKey | src/main/kotlin/ai/rever/boss/plugin/dynamic/llmrpa/LlmSettings.kt:14-17 | the default record has no usable key for any provider |
| LlmSettings.SelectedProvider | src/main/kotlin/ai/rever/boss/plugin/dynamic/llmrpa/LlmSettings.kt:41-46 | the stored name's provider, or Anthropic whenever the name is not a valid enum name |
| LlmSettings.Save | src/main/kotlin/ai/rever/boss/plugin/dynamic/llmrpa/LlmSettings.kt:69-75 | a successful write makes the snapshot equal the in-memory record; a failed one is ignored |
| LlmSettings.LoadSettings | src/main/kotlin/ai/rever/boss/plugin/dynamic/llmrpa/LlmSettings.kt:57-67 | a missing file keeps the record, a decoded file replaces it unclamped, a failure resets to defaults |
| LlmSettings.LoadDoesNotClamp | src/main/kotlin/ai/rever/boss/plugin/dynamic/llmrpa/LlmSettings.kt:57-67 | an out-of-range loaded value survives loading and is clamped only by the next set |
| LlmSettings.GetApiKey | src/main/kotlin/ai/rever/boss/plugin/dynamic/llmrpa/LlmSettings.kt:77-85 | null iff the provider's stored key is blank, otherwise that key |
| LlmSettings.GetCustomEndpoint | src/main/kotlin/ai/rever/boss/plugin/dynamic/llmrpa/LlmSettings.kt:97 | the endpoint is the stored field as is, blank or not |
| LlmSettings.SetApiKey | src/main/kotlin/ai/rever/boss/plugin/dynamic/llmrpa/LlmSettings.kt:87-95 | only that provider's key changes: other keys and all other fields are unchanged, and the record is saved when the write succeeds; a failed write leaves the saved file as it was |
| LlmSettings.SetThenGetApiKey | src/main/kotlin/ai/rever/boss/plugin/dynamic/llmrpa/LlmSettings.kt:77-95 | reading a key back after setting it gives it (or null if blank); other providers read as before |
| LlmSettings.SetCustomEndpoint | src/main/kotlin/ai/rever/boss/plugin/dynamic/llmrpa/LlmSettings.kt:99-102 | only the endpoint changes, and the record is saved when the write succeeds; a failed write leaves the saved file as it was |
| LlmSettings.SetProvider | src/main/kotlin/ai/rever/boss/plugin/dynamic/llmrpa/LlmSettings.kt:104-112 | the provider becomes selected. Non-Custom: the model becomes its first catalog id. Custom: the model is untouched. Keys, endpoint and limits are untouched; the record is saved when the write succeeds, and a failed write leaves the saved file as it was |
| LlmSettings.SetProviderSelectsCatalogModel | src/main/kotlin/ai/rever/boss/plugin/dynamic/llmrpa/LlmSettings.kt:104-112 | after choosing a non-Custom provider, the selected id finds that provider's first model |
| LlmSettings.SetModel | src/main/kotlin/ai/rever/boss/plugin/dynamic/llmrpa/LlmSettings.kt:114-117 | any id is stored as is, and only the model field changes |
| LlmSettings.SetMaxTokens | src/main/kotlin/ai/rever/boss/plugin/dynamic/llmrpa/LlmSettings.kt:119-122 | the stored value is in [100, 32000]: in-range values unchanged, below gives 100, above gives 32000; nothing else changes |
| LlmSettings.SetTemperature | src/main/kotlin/ai/rever/boss/plugin/dynamic/llmrpa/LlmSettings.kt:124-127 | the stored value is in [0.0, 2.0] with the same three cases; nothing else changes |
| LlmSettings.ClampExamples | src/main/kotlin/ai/rever/boss/plugin/dynamic/llmrpa/LlmSettings.kt:119-127 | 50 tokens gives 100, 1000000 gives 32000, 2048 stays; temperature -1 gives 0.0, 5 gives 2.0 |
| LlmSettings.SettersIdempotent | src/main/kotlin/ai/rever/boss/plugin/dynamic/llmrpa/LlmSettings.kt:119-127 | setting the same token count or temperature twice leaves the same settings as setting it once |
| LlmSettings.SavedSettingsReadBack | src/main/kotlin/ai/rever/boss/plugin/dynamic/llmrpa/LlmSettings.kt:56-74 | after a successful save, loading the saved file gives back exactly the in-memory settings |
| LlmSettings.HasValidApiKey | src/main/kotlin/ai/rever/boss/plugin/dynamic/llmrpa/LlmSettings.kt:129-131 | a usable key is a non-null `getApiKey` for the selected provider |
| LlmSettings.HasValidApiKeyMeaning | src/main/kotlin/ai/rever/boss/plugin/dynamic/llmrpa/LlmSettings.kt:129-131 | a usable key exists iff the selected provider's key is non-blank; with an invalid stored name that is Anthropic's key |
| LlmSettings.SetProviderKeyCheck | src/main/kotlin/ai/rever/boss/plugin/dynamic/llmrpa/LlmSettings.kt:104-131 | after choosing a provider, the key check looks at exactly that provider's key |
| LlmApiClient.JsonSpan | src/main/kotlin/ai/rever/boss/plugin/dynamic/llmrpa/LlmApiClient.kt:254 | the regex matches iff some `}` follows a `{`; the match runs from the first `{` to the last `}` |
| KotlinStd.IndexOf | src/main/kotlin/ai/rever/boss/plugin/dynamic/llmrpa/LlmApiClient.kt:254 | the first position holding the character, or null exactly when it does not occur |
| KotlinStd.LastIndexOf | src/main/kotlin/ai/rever/boss/plugin/dynamic/llmrpa/LlmApiClient.kt:254 | the last position holding the character, or null exactly when it does not occur |
| LlmApiClient.JsonCandidate | src/main/kotlin/ai/rever/boss/plugin/dynamic/llmrpa/LlmApiClient.kt:254-255 | the decode input is the match, which starts with `{` and ends with `}`, or the whole content when there is no match |
| LlmApiClient.JsonCandidateIdempotent | src/main/kotlin/ai/rever/boss/plugin/dynamic/llmrpa/LlmApiClient.kt:254-255 | extracting again from the candidate returns it unchanged |
| LlmApiClient.JsonCandidateStripsFence | src/main/kotlin/ai/rever/boss/plugin/dynamic/llmrpa/LlmApiClient.kt:254-255 | a fenced object loses its fence |
| LlmApiClient.JsonCandidateIsGreedy | src/main/kotlin/ai/rever/boss/plugin/dynamic/llmrpa/LlmApiClient.kt:254 | two separate objects are taken together with the text between them |
| LlmApiClient.WaitStep | src/main/kotlin/ai/rever/boss/plugin/dynamic/llmrpa/LlmApiClient.kt:259-286 | the placeholder step is a "wait" of "1000" with action type "default" and a unique "none" selector with null value |
| LlmApiClient.ParseRpaResponse | src/main/kotlin/ai/rever/boss/plugin/dynamic/llmrpa/LlmApiClient.kt:252-272 | the decoded candidate when decoding succeeds. Otherwise the repair response: one "Wait" step, status "error", and the message "Failed to parse LLM response: " followed by the cause |
| LlmApiClient.ParseNeverEmptyOnFailure | src/main/kotlin/ai/rever/boss/plugin/dynamic/llmrpa/LlmApiClient.kt:257-270 | a decode failure always gives exactly one wait step of "1000" with status "error" |
| LlmApiClient.MockResponse | src/main/kotlin/ai/rever/boss/plugin/dynamic/llmrpa/LlmApiClient.kt:274-291 | one wait step named "Example: " + the first instruction (or "wait"): a "wait" of "1000" with action type "default", a unique "none" selector and the note meta; status "success" and the mock message |
| LlmApiClient.InstructionBlock | src/main/kotlin/ai/rever/boss/plugin/dynamic/llmrpa/LlmApiClient.kt:210 | an empty request gives an empty block and a one-action request gives "- " + its instruction; longer requests are characterised by `InstructionBlockLines` |
| LlmApiClient.InstructionBlockLines | src/main/kotlin/ai/rever/boss/plugin/dynamic/llmrpa/LlmApiClient.kt:210 | for instructions without line breaks, the block splits back into one line "- " + instruction per action, in request order |
| LlmApiClient.HttpErrorMessage | src/main/kotlin/ai/rever/boss/plugin/dynamic/llmrpa/LlmApiClient.kt:91-204 | a non-2xx message ends with the rendered status, followed by " - " and the body only for Anthropic |
| LlmApiClient.HttpErrorMessagesDistinct | src/main/kotlin/ai/rever/boss/plugin/dynamic/llmrpa/LlmApiClient.kt:91-204 | the four providers' non-2xx messages differ for the same status and body |
| LlmApiClient.ChatAdapter | src/main/kotlin/ai/rever/boss/plugin/dynamic/llmrpa/LlmApiClient.kt:91-182 | for Anthropic, OpenAI and Together: an exception before the completion text is read and a non-2xx status (with that provider's message) raise, and so does a missing key on the envelope path ("Invalid response format"); otherwise the completion text is normalised |
| LlmApiClient.CustomAdapter | src/main/kotlin/ai/rever/boss/plugin/dynamic/llmrpa/LlmApiClient.kt:185-207 | a blank endpoint raises "Custom endpoint not configured" before sending. Otherwise a thrown error or a non-2xx status raises, and a 2xx reply's typed body (the client's own content-negotiated conversion, not the normaliser's `decode`) is returned, a failed conversion raising with its own message |
| LlmApiClient.FailureResponse | src/main/kotlin/ai/rever/boss/plugin/dynamic/llmrpa/LlmApiClient.kt:56-62 | the catch-all response has status "error", no steps and "API call failed: " + cause |
| LlmApiClient.CallLlmApi | src/main/kotlin/ai/rever/boss/plugin/dynamic/llmrpa/LlmApiClient.kt:34-63 | settings are loaded first. With no usable key: the mock, and nothing sent. Otherwise the selected provider's adapter runs and any raise becomes the catch-all response. A request is sent unless Custom has a blank endpoint |
| LlmApiClient.CallOutcomeShapes | src/main/kotlin/ai/rever/boss/plugin/dynamic/llmrpa/LlmApiClient.kt:34-63 | every call yields the mock, the typed body of a Custom reply, a response decoded or repaired by the normaliser, or an empty error response whose message starts with "API call failed: " |
| LlmApiClient.NoKeyScenario | src/main/kotlin/ai/rever/boss/plugin/dynamic/llmrpa/LlmApiClient.kt:39-45 | with no key, "Click search" yields one successful "wait" step named "Example: Click search", and nothing is sent |
| LlmApiClient.BlankEndpointScenario | src/main/kotlin/ai/rever/boss/plugin/dynamic/llmrpa/LlmApiClient.kt:189-192 | Custom with a key and a blank endpoint sends nothing and answers "API call failed: Custom endpoint not configured" |
| LlmApiClient.ChatFailuresAreErrors | src/main/kotlin/ai/rever/boss/plugin/dynamic/llmrpa/LlmApiClient.kt:91-98 | with a key, a thrown error, non-2xx status or missing envelope field gives an empty "error" response after a request was sent |
| LlmrpaComponent.GenerateActions | src/main/kotlin/ai/rever/boss/plugin/dynamic/llmrpa/LlmrpaComponent.kt:117-132 | a blank instruction only sets "Please enter an instruction". Otherwise exactly one GENERATING record is appended, with the old length as its captured index. Earlier records are unchanged, the flag is raised and the error cleared |
| LlmrpaComponent.RequestFor | src/main/kotlin/ai/rever/boss/plugin/dynamic/llmrpa/LlmrpaComponent.kt:137-142 | the request carries exactly one action, the instruction with action type "default" and no meta, no configuration, and the selected tab's URL or "https://example.com" |
| LlmrpaComponent.RequestInstructionBlock | src/main/kotlin/ai/rever/boss/plugin/dynamic/llmrpa/LlmApiClient.kt:210 | the component's one-action request yields the block "- " + the whole instruction, line breaks included |
| LlmrpaComponent.UpdateExecutionStatus | src/main/kotlin/ai/rever/boss/plugin/dynamic/llmrpa/LlmrpaComponent.kt:177-193 | the length is kept and only slot i changes; a no-op when i >= size. An empty action list keeps the old actions and a null error keeps the old error |
| LlmrpaComponent.OutcomeStatus | src/main/kotlin/ai/rever/boss/plugin/dynamic/llmrpa/LlmrpaComponent.kt:149 | READY iff the response has at least one step, otherwise ERROR |
| LlmrpaComponent.Complete | src/main/kotlin/ai/rever/boss/plugin/dynamic/llmrpa/LlmrpaComponent.kt:146-173 | For "success"/"error": READY iff there are steps, else ERROR with the message; a null message keeps the old error. Any other status: ERROR with the message or "Unknown error", steps kept. Instruction and timestamp are kept, and other slots are untouched. The input is cleared only when there are steps; the flag always drops |
| LlmrpaComponent.CompleteFailed | src/main/kotlin/ai/rever/boss/plugin/dynamic/llmrpa/LlmrpaComponent.kt:165-173 | an exception makes the slot ERROR with its message or "Unknown error occurred"; its steps, instruction and timestamp are kept, other slots and fields are untouched, and the flag drops |
| LlmrpaComponent.ClearHistory | src/main/kotlin/ai/rever/boss/plugin/dynamic/llmrpa/LlmrpaComponent.kt:195-197 | the history becomes empty and nothing else changes |
| LlmrpaComponent.ClearError | src/main/kotlin/ai/rever/boss/plugin/dynamic/llmrpa/LlmrpaComponent.kt:110-112 | the error message becomes null and nothing else changes |
| LlmrpaComponent.BrowserTabs | src/main/kotlin/ai/rever/boss/plugin/dynamic/llmrpa/LlmrpaComponent.kt:67 | the kept tabs are exactly those with a non-null URL |
| LlmrpaComponent.BrowserTabsConcat | src/main/kotlin/ai/rever/boss/plugin/dynamic/llmrpa/LlmrpaComponent.kt:67 | filtering a concatenation is the concatenation of the filtered parts, so the kept tabs stay in their original order |
| LlmrpaComponent.BrowserTabsSingle | src/main/kotlin/ai/rever/boss/plugin/dynamic/llmrpa/LlmrpaComponent.kt:67 | a single tab is kept exactly when it has a URL |
| LlmrpaComponent.BrowserTabsFirst | src/main/kotlin/ai/rever/boss/plugin/dynamic/llmrpa/LlmrpaComponent.kt:67 | the first kept tab is the first tab of the input that has a URL |
| LlmrpaComponent.SyncTabs | src/main/kotlin/ai/rever/boss/plugin/dynamic/llmrpa/LlmrpaComponent.kt:65-79 | the available tabs are those with a URL. The selection is null iff none remain, and a selected id is among them. A still-present selection is kept. When there was no selection or its id vanished, the first available tab is chosen |
| LlmrpaComponent.StepNeverCompletes | src/main/kotlin/ai/rever/boss/plugin/dynamic/llmrpa/LlmrpaComponent.kt:117-197 | no event moves a record into COMPLETED |
| LlmrpaComponent.RunNeverCompletes | src/main/kotlin/ai/rever/boss/plugin/dynamic/llmrpa/LlmrpaComponent.kt:117-197 | no sequence of events does either |
| LlmrpaComponent.ReachableNeverCompleted | src/main/kotlin/ai/rever/boss/plugin/dynamic/llmrpa/LlmrpaComponent.kt:117-197 | from the initial state, COMPLETED is never reached |
| LlmrpaComponent.GenerationWithoutKey | src/main/kotlin/ai/rever/boss/plugin/dynamic/llmrpa/LlmrpaComponent.kt:117-175 | without a usable key a generation sends nothing; its record becomes READY with exactly the mock's one wait step, named "Example: " + the instruction; the input clears and the flag drops |
| LlmrpaComponent.GenerationBlankEndpoint | src/main/kotlin/ai/rever/boss/plugin/dynamic/llmrpa/LlmrpaComponent.kt:117-175 | with a Custom key and a blank endpoint a generation sends nothing; its record becomes ERROR with "API call failed: Custom endpoint not configured" and no steps; the input is kept |
| LlmrpaComponent.StepKeepsIdentities | src/main/kotlin/ai/rever/boss/plugin/dynamic/llmrpa/LlmrpaComponent.kt:131-193 | every event but a clear keeps all existing records' instruction and timestamp |
| LlmrpaComponent.RunKeepsIdentities | src/main/kotlin/ai/rever/boss/plugin/dynamic/llmrpa/LlmrpaComponent.kt:131-193 | the same over any clear-free sequence of events |
| LlmrpaComponent.CompletionHitsItsOwnRecord | src/main/kotlin/ai/rever/boss/plugin/dynamic/llmrpa/LlmrpaComponent.kt:131-153 | with no clear in between, a completion settles the record its generation appended, whatever completed meanwhile |
| LlmrpaComponent.CompletionsCommute | src/main/kotlin/ai/rever/boss/plugin/dynamic/llmrpa/LlmrpaComponent.kt:146-192 | completions for different slots give the same state in either arrival order |
| LlmrpaComponent.FlagDropsEarly | src/main/kotlin/ai/rever/boss/plugin/dynamic/llmrpa/LlmrpaComponent.kt:171-173 | the first completion clears `isGenerating` while another record is still GENERATING |
| LlmrpaComponent.StaleCompletionOverwrites | src/main/kotlin/ai/rever/boss/plugin/dynamic/llmrpa/LlmrpaComponent.kt:131-197 | after a clear and a new generation, a completion meant for a cleared record lands on the new record |
| LlmrpaComponent.CompletionAfterClearIsNoOp | src/main/kotlin/ai/rever/boss/plugin/dynamic/llmrpa/LlmrpaComponent.kt:184-197 | a completion arriving after a clear, with nothing new generated, leaves the history empty |
| LlmrpaContent.ElapsedMs | src/main/kotlin/ai/rever/boss/plugin/dynamic/llmrpa/LlmrpaContent.kt:769-770 | the elapsed time is the `Long` difference: congruent to the exact difference modulo 2^64 and within the `Long` range, so exact when it fits and wrapped otherwise |
| LlmrpaContent.FormatTimestamp | src/main/kotlin/ai/rever/boss/plugin/dynamic/llmrpa/LlmrpaContent.kt:768-777 | "just now" iff under a minute has passed, future timestamps included. Otherwise the label is a decimal number without leading zeros and a unit suffix. The number read back is the whole count of the largest fitting unit: 1-59 minutes, 1-23 hours, or at least one day |
| LlmrpaContent.ReadsAsFixesText | src/main/kotlin/ai/rever/boss/plugin/dynamic/llmrpa/LlmrpaContent.kt:774-776 | a label that reads as a count is exactly the string template of that count and its suffix, so the label is fully determined |
| LlmrpaContent.FormatTimestampExample | src/main/kotlin/ai/rever/boss/plugin/dynamic/llmrpa/LlmrpaContent.kt:768-777 | 90 seconds ago reads "1m ago"; a timestamp one second in the future reads "just now" |
| LlmrpaContent.NewestFirst | src/main/kotlin/ai/rever/boss/plugin/dynamic/llmrpa/LlmrpaContent.kt:116 | the display order is the stored order reversed |
| LlmrpaContent.NewestFirstInvolution | src/main/kotlin/ai/rever/boss/plugin/dynamic/llmrpa/LlmrpaContent.kt:116 | reversing the display order gives back the stored order |
| LlmrpaContent.NewGenerationShownFirst | src/main/kotlin/ai/rever/boss/plugin/dynamic/llmrpa/LlmrpaContent.kt:116 | the record a generation appends is shown first |
| LlmrpaContent.ExecuteEnabled | src/main/kotlin/ai/rever/boss/plugin/dynamic/llmrpa/LlmrpaContent.kt:530 | the button's `enabled` expression: a non-blank instruction, a selected tab, and no generation running |
| LlmrpaContent.ExecuteEnabledAfterCompletion | src/main/kotlin/ai/rever/boss/plugin/dynamic/llmrpa/LlmrpaContent.kt:530 | after a completion the button is enabled iff the input is non-blank and a tab is selected: a response with steps leaves it disabled, one without steps leaves it enabled for a retry |
| LlmrpaContent.ExecuteEnabledStartsGeneration | src/main/kotlin/ai/rever/boss/plugin/dynamic/llmrpa/LlmrpaContent.kt:530 | clicking an enabled button always starts a generation and then disables the button |
| LlmrpaContent.StatusLabel | src/main/kotlin/ai/rever/boss/plugin/dynamic/llmrpa/LlmrpaContent.kt:666 | the card label is the status name lower-cased with its first letter upper-cased |
| LlmrpaContent.StatusLabels | src/main/kotlin/ai/rever/boss/plugin/dynamic/llmrpa/LlmrpaContent.kt:666 | the labels are "Generating", "Ready", "Completed" and "Error" |
| LlmrpaContent.StatusCardTitle | src/main/kotlin/ai/rever/boss/plugin/dynamic/llmrpa/LlmrpaContent.kt:438-465 | the title names the selected provider's display name when it has a usable key, and is "No API key configured" exactly when it has none |
| LlmrpaContent.DisplayNamesDistinct | src/main/kotlin/ai/rever/boss/plugin/dynamic/llmrpa/LlmTypes.kt:8-13 | different providers have different display names |
| LlmrpaContent.StatusCardAfterSetup | src/main/kotlin/ai/rever/boss/plugin/dynamic/llmrpa/LlmrpaContent.kt:438-465 | after storing a non-blank key for a provider and selecting it, the title names that provider |

## Behaviour worth knowing

These behaviours of the code follow from the cited lines and are stated as lemmas:

- `isGenerating` is a single flag. The first completion clears it while other records may still be GENERATING (`FlagDropsEarly`).
- A completion carries a positional index, so after `clearHistory` a stale completion whose index is back in range overwrites a newer record (`StaleCompletionOverwrites`).
- Choosing Custom leaves the selected model id as it was (`SetProvider`).
- A response whose status is "success" but which has no steps becomes ERROR (`OutcomeStatus`). The slot's `error` becomes the response message; when that message is null the slot keeps its previous error (`Complete`).

## Left out

- HTTP transport: the client, headers, endpoint URLs, request bodies and `dispose`. Each call's reply or thrown exception is an `Exchange` parameter. Any exception raised before the completion text is read, with the library's own message, is `Threw`. This covers a 2xx body that is not a JSON object, an empty `content`/`choices` array, and a field of the wrong JSON kind. A reply's `completion` is absent only when a key on the envelope path is missing.
- LlmApiClient.InstructionBlockLines: holds for instructions without line breaks only. The instruction field accepts several lines, and such an instruction spans several lines of the block (`RequestInstructionBlock` states what the block then is).
- JSON decoding with kotlinx.serialization. The normaliser's decoder is the `decode` parameter and the Custom path's content-negotiated conversion is the reply's `typedBody`. No JSON parser is modelled, so which texts decode, and the message a failure carries, are whatever these report.
- The fixed prose of `buildPrompt` (schema description, action-type list, selector advice). Only the instruction lines are modelled. The source URL line and `trimIndent` are not.
- Settings file I/O. The path, `mkdirs`, `readText`/`writeText` and JSON encoding are reduced to a `SettingsFile` read outcome and a `writeOk` flag.
- Coroutines: `Dispatchers`, `SupervisorJob`, `collectLatest` and `scope.cancel`. Each completion and each tab update is one atomic event. Cancellation on destroy is not modelled.
- The clock. Creation timestamps and `now` are parameters.
- The URL the coroutine reads is taken from the state at the time `RequestFor` is applied. When the launched coroutine first runs relative to other events is not modelled.
- The Compose UI in `LlmrpaContent.kt`. Five pieces of it are modelled: the relative timestamp (`FormatTimestamp`), the newest-first order (`NewestFirst`), the Execute button's enable rule (`ExecuteEnabled`), the status label (`StatusLabel`) and the status card's title (`StatusCardTitle`). Also left out: plugin registration and panel metadata (`LlmrpaDynamicPlugin.kt`, `LlmrpaInfo.kt`).
- LlmSettings.SetTemperature: temperature is a `real`, so NaN, infinities and binary rounding of `Double` are not modelled.
- LlmrpaContent.StatusLabels: `lowercase` and `uppercase` are modelled for ASCII letters only, which is all the enum names contain.
- LlmTypes.NewActionConfig: `meta` maps are Dafny maps; their JSON form and key order are not modelled.
- HTTP status codes are non-negative integers, and `isSuccess` is the range 200-299 as in Ktor.
- `updateInstruction`, `selectTab`, `toggleSettings` and `applyQuickExample` only assign one field. They appear as events of `LlmrpaComponent.Step` and carry no contract of their own.

=== FILE: kotlin_std.dfy ===
/** The small part of the Kotlin/JVM standard library whose behaviour the plugin
    depends on: nullable values, `isBlank`, `coerceIn`, `Long` arithmetic,
    decimal rendering of numbers, ASCII case mapping, `indexOf`/`lastIndexOf`
    and `joinToString`. Each is given an independent characterisation so that
    the modules built on top can reason about it without unfolding bodies. */
module KotlinStd {

  /** A Kotlin nullable `T?`: `None` is `null`. */
  datatype Option<+T> = None | Some(value: T) {
    /** Kotlin's elvis operator `this ?: default`. */
    function OrElse(default: T): T {
      match this
      case Some(v) => v
      case None => default
    }
  }

  /** `Char.isWhitespace()` on the JVM: `Character.isWhitespace(c) || Character.isSpaceChar(c)`,
      i.e. the ASCII controls TAB..CR and FS..US plus the Unicode categories Zs, Zl and Zp. */
  predicate IsWhitespace(c: char) {
    || ('\t' <= c <= '\r')
    || ('\U{1C}' <= c <= '\U{1F}')
    || c == ' '
    || c == '\U{A0}'
    || c == '\U{1680}'
    || ('\U{2000}' <= c <= '\U{200A}')
    || c == '\U{2028}'
    || c == '\U{2029}'
    || c == '\U{202F}'
    || c == '\U{205F}'
    || c == '\U{3000}'
  }

  /** `CharSequence.isBlank()`: empty, or whitespace only. */
  predicate IsBlank(s: string) {
    forall i :: 0 <= i < |s| ==> IsWhitespace(s[i])
  }

  /** `Int.coerceIn(lo, hi)`: the nearest value of the closed range. Kotlin throws
      when the range is empty, so callers must pass `lo <= hi`. */
  function CoerceIn(x: int, lo: int, hi: int): (r: int)
    requires lo <= hi
    ensures lo <= r <= hi
    ensures lo <= x <= hi ==> r == x
    ensures x < lo ==> r == lo
    ensures x > hi ==> r == hi
  {
    if x < lo then lo else if x > hi then hi else x
  }

  /** `Double.coerceIn(lo, hi)` on the real numbers (no NaN, no rounding). */
  function CoerceInReal(x: real, lo: real, hi: real): (r: real)
    requires lo <= hi
    ensures lo <= r <= hi
    ensures lo <= x <= hi ==> r == x
    ensures x < lo ==> r == lo
    ensures x > hi ==> r == hi
  {
    if x < lo then lo else if x > hi then hi else x
  }

  /** Clamping twice is clamping once. */
  lemma CoerceInIdempotent(x: int, lo: int, hi: int)
    requires lo <= hi
    ensures CoerceIn(CoerceIn(x, lo, hi), lo, hi) == CoerceIn(x, lo, hi)
  {
  }

  // ----- 64-bit Long ---------------------------------------------------------

  const LONG_MIN: int := -0x8000_0000_0000_0000
  const LONG_MAX: int := 0x7FFF_FFFF_FFFF_FFFF
  const TWO_64: int := 0x1_0000_0000_0000_0000

  predicate IsLong(x: int) {
    LONG_MIN <= x <= LONG_MAX
  }

  /** The two's-complement wrap-around a JVM `Long` operation applies to the exact result. */
  function WrapLong(x: int): (r: int)
    ensures IsLong(r)
    ensures (r - x) % TWO_64 == 0
    ensures IsLong(x) ==> r == x
  {
    (x - LONG_MIN) % TWO_64 + LONG_MIN
  }

  // ----- decimal rendering ---------------------------------------------------

  predicate IsDigit(c: char) {
    '0' <= c <= '9'
  }

  function DigitChar(d: nat): (c: char)
    requires d < 10
    ensures IsDigit(c)
  {
    ['0', '1', '2', '3', '4', '5', '6', '7', '8', '9'][d]
  }

  function DigitValue(c: char): (d: nat)
    requires IsDigit(c)
    ensures d < 10
  {
    (c as int - '0' as int) as nat
  }

  lemma DigitRoundTrip(d: nat)
    requires d < 10
    ensures DigitValue(DigitChar(d)) == d
  {
  }

  /** `toString()` of a non-negative integer: shortest decimal form. */
  function NatToString(n: nat): (s: string)
    ensures |s| >= 1
    ensures forall i :: 0 <= i < |s| ==> IsDigit(s[i])
    ensures |s| > 1 ==> s[0] != '0'
    decreases n
  {
    if n < 10 then [DigitChar(n)] else NatToString(n / 10) + [DigitChar(n % 10)]
  }

  /** Reading a string of decimal digits back as a number (an independent inverse). */
  function ParseDecimal(s: string): (n: nat)
    requires forall i :: 0 <= i < |s| ==> IsDigit(s[i])
    decreases |s|
  {
    if |s| == 0 then 0 else ParseDecimal(s[..|s| - 1]) * 10 + DigitValue(s[|s| - 1])
  }

  /** Rendering then reading gives back the number. */
  lemma {:induction false} NatToStringRoundTrip(n: nat)
    ensures ParseDecimal(NatToString(n)) == n
    decreases n
  {
    var s := NatToString(n);
    if n < 10 {
      DigitRoundTrip(n);
    } else {
      var p := NatToString(n / 10);
      assert s == p + [DigitChar(n % 10)];
      assert s[..|s| - 1] == p;
      NatToStringRoundTrip(n / 10);
      DigitRoundTrip(n % 10);
    }
  }

  /** Reading a digit character and writing it back gives the same character. */
  lemma DigitCharOfValue(c: char)
    requires IsDigit(c)
    ensures DigitChar(DigitValue(c)) == c
  {
  }

  /** A digit string without leading zeros is the rendering of the number it reads as:
      `NatToString` is the only such spelling. */
  lemma {:induction false} ParseDecimalCanonical(s: string)
    requires |s| >= 1
    requires forall i :: 0 <= i < |s| ==> IsDigit(s[i])
    requires |s| > 1 ==> s[0] != '0'
    ensures NatToString(ParseDecimal(s)) == s
    decreases |s|
  {
    var n := ParseDecimal(s);
    var last := s[|s| - 1];
    if |s| == 1 {
      DigitCharOfValue(last);
      assert s == [last];
    } else {
      var p := s[..|s| - 1];
      assert p[0] == s[0];
      ParseDecimalCanonical(p);
      var q := ParseDecimal(p);
      if |p| == 1 {
        assert q == DigitValue(p[0]) by { assert p[..0] == []; }
      }
      assert n == q * 10 + DigitValue(last);
      assert n / 10 == q && n % 10 == DigitValue(last);
      DigitCharOfValue(last);
      assert s == p + [last];
    }
  }

  // ----- ASCII case mapping --------------------------------------------------

  function LowerChar(c: char): (r: char)
    ensures 'A' <= c <= 'Z' ==> r as int == c as int + 32
    ensures !('A' <= c <= 'Z') ==> r == c
  {
    if 'A' <= c <= 'Z' then (c as int + 32) as char else c
  }

  function UpperChar(c: char): (r: char)
    ensures 'a' <= c <= 'z' ==> r as int == c as int - 32
    ensures !('a' <= c <= 'z') ==> r == c
  {
    if 'a' <= c <= 'z' then (c as int - 32) as char else c
  }

  /** `String.lowercase()` restricted to ASCII letters. */
  function Lowercase(s: string): (r: string)
    ensures |r| == |s|
    ensures forall i :: 0 <= i < |s| ==> r[i] == LowerChar(s[i])
  {
    seq(|s|, i requires 0 <= i < |s| => LowerChar(s[i]))
  }

  /** `replaceFirstChar { it.uppercase() }` restricted to ASCII letters. */
  function CapitalizeFirst(s: string): (r: string)
    ensures |r| == |s|
    ensures |s| > 0 ==> r[0] == UpperChar(s[0]) && r[1..] == s[1..]
  {
    if |s| == 0 then s else [UpperChar(s[0])] + s[1..]
  }

  // ----- searching -----------------------------------------------------------

  /** `indexOf(c)`: the first position holding `c`, or null. */
  function IndexOf(s: string, c: char): (r: Option<nat>)
    ensures r.Some? ==> r.value < |s| && s[r.value] == c && c !in s[..r.value]
    ensures r.None? ==> c !in s
    decreases |s|
  {
    if |s| == 0 then None
    else if s[0] == c then Some(0)
    else match IndexOf(s[1..], c)
      case None => None
      case Some(i) => assert s[1..][..i] == s[1..i + 1]; Some(i + 1)
  }

  /** `lastIndexOf(c)`: the last position holding `c`, or null. */
  function LastIndexOf(s: string, c: char): (r: Option<nat>)
    ensures r.Some? ==> r.value < |s| && s[r.value] == c && c !in s[r.value + 1..]
    ensures r.None? ==> c !in s
    decreases |s|
  {
    if |s| == 0 then None
    else if s[|s| - 1] == c then Some(|s| - 1)
    else match LastIndexOf(s[..|s| - 1], c)
      case None => None
      case Some(i) => assert s[i + 1..] == s[..|s| - 1][i + 1..] + [s[|s| - 1]]; Some(i)
  }

  /** The first occurrence is unique: any position holding `c` with no earlier `c` is it. */
  lemma IndexOfIsFirst(s: string, c: char, k: nat)
    requires k < |s| && s[k] == c && c !in s[..k]
    ensures IndexOf(s, c) == Some(k)
  {
  }

  /** The last occurrence is unique: any position holding `c` with no later `c` is it. */
  lemma LastIndexOfIsLast(s: string, c: char, k: nat)
    requires k < |s| && s[k] == c && c !in s[k + 1..]
    ensures LastIndexOf(s, c) == Some(k)
  {
  }

  // ----- joining and splitting -----------------------------------------------

  /** `joinToString(sep)` over already-transformed parts. */
  function JoinToString(parts: seq<string>, sep: string): (r: string)
    decreases |parts|
  {
    if |parts| == 0 then ""
    else if |parts| == 1 then parts[0]
    else parts[0] + sep + JoinToString(parts[1..], sep)
  }

  /** Splitting on a single character: the inverse of joining on it. */
  function Split(s: string, c: char): (r: seq<string>)
    ensures |r| >= 1
    decreases |s|
  {
    match IndexOf(s, c)
    case None => [s]
    case Some(i) => [s[..i]] + Split(s[i + 1..], c)
  }

  /** Joining parts that do not contain the separator character and splitting on it
      gives the parts back. */
  lemma {:induction false} SplitJoinToString(parts: seq<string>, c: char)
    requires |parts| >= 1
    requires forall k :: 0 <= k < |parts| ==> c !in parts[k]
    ensures Split(JoinToString(parts, [c]), c) == parts
    decreases |parts|
  {
    if |parts| == 1 {
      assert IndexOf(parts[0], c) == None;
    } else {
      var rest := JoinToString(parts[1..], [c]);
      var s := parts[0] + [c] + rest;
      assert JoinToString(parts, [c]) == s;
      var n := |parts[0]|;
      assert s[..n] == parts[0];
      IndexOfIsFirst(s, c, n);
      assert s[n + 1..] == rest;
      SplitJoinToString(parts[1..], c);
      assert parts == [parts[0]] + parts[1..];
    }
  }
}

=== FILE: llm_api_client.dfy ===
/** `LlmApiClient`: the decision logic of one completion call and the normaliser
    that turns a model's free text into an `LlmRpaResponse`.

    The HTTP exchange is not performed here: the single reply the provider gives
    (status, body, and the completion text found in its envelope, if any) or the
    exception thrown while sending the request or reading its reply is an
    `Exchange` parameter. The normaliser's JSON
    decoding is the `decode` parameter, so nothing here depends on how a JSON parser
    behaves. */
module LlmApiClient {
  import opened KotlinStd
  import opened LlmTypes
  import opened LlmSettings

  // ----- abstract edges ------------------------------------------------------

  /** What decoding a string into an `LLMRpaResponse` gives: the value, or the
      exception's (nullable) message. */
  datatype DecodeResult = Decoded(response: LlmRpaResponse) | DecodeFailed(message: Option<string>)

  /** Ktor's `HttpStatusCode`. */
  datatype HttpStatus = HttpStatus(code: nat, description: string) {
    /** `isSuccess()`: the 2xx range. */
    predicate IsSuccess() {
      200 <= code < 300
    }

    /** `toString()`: "<code> <description>". */
    function Render(): string {
      NatToString(code) + " " + description
    }
  }

  /** The provider's side of one POST. `Threw` is any exception the adapter meets
      before it has the completion text, with that exception's message: a transport
      error, a 2xx body that is not a JSON object, an empty `content` or `choices`
      array, or a field of the wrong JSON kind on the path. `Replied` is a reply whose
      envelope could be walked: `completion` is the primitive's content at
      `content[0].text` (Anthropic) or `choices[0].message.content` (OpenAI, Together),
      so a JSON `null` there reads as "null", and it is `None` only when a key on that
      path is missing, the case that raises "Invalid response format". `typedBody` is what the HTTP client's own content-negotiated
      `body<LLMRpaResponse>()` gives for this reply (the Custom provider's path): it
      depends on the reply's content type and the client's JSON configuration, not on
      the normaliser's `decode`, and a failure carries the library's message. */
  datatype Exchange =
    | Replied(status: HttpStatus, body: string, completion: Option<string>, typedBody: DecodeResult)
    | Threw(message: Option<string>)

  /** An adapter either returns a response or throws an exception with a nullable message. */
  datatype Attempt = Returned(response: LlmRpaResponse) | Raised(message: Option<string>)

  /** The result of `callLLMApi` together with the settings it loaded and the provider
      it attempted to send a request to, if any (also set when the POST throws). */
  datatype CallResult = CallResult(settings: Settings, response: LlmRpaResponse, sentTo: Option<Provider>)

  /** A string template renders a null message as "null". */
  function MessageText(m: Option<string>): string {
    m.OrElse("null")
  }

  // ----- response normaliser --------------------------------------------------

  /** The span matched by the regex `\{[\s\S]*\}`: from the first `{` to the last
      `}`, when a `}` follows the first `{`. */
  function JsonSpan(content: string): (r: Option<(nat, nat)>)
    ensures r.Some? ==> r.value.0 < r.value.1 < |content|
    ensures r.Some? ==> IndexOf(content, '{') == Some(r.value.0)
    ensures r.Some? ==> LastIndexOf(content, '}') == Some(r.value.1)
    ensures r.None? <==> !exists i, j :: 0 <= i < j < |content| && content[i] == '{' && content[j] == '}'
  {
    match (IndexOf(content, '{'), LastIndexOf(content, '}'))
    case (Some(i), Some(j)) =>
      if i < j then Some((i, j))
      else
        None
    case (None, _) =>
      assert forall a :: 0 <= a < |content| ==> content[a] != '{' by {
        forall a | 0 <= a < |content| ensures content[a] != '{' { assert content[a] in content; }
      }
      None
    case (_, None) =>
      assert forall b :: 0 <= b < |content| ==> content[b] != '}' by {
        forall b | 0 <= b < |content| ensures content[b] != '}' { assert content[b] in content; }
      }
      None
  }

  /** The string handed to the decoder: the regex match's value, or the whole
      content when there is no match. */
  function JsonCandidate(content: string): (r: string)
    ensures JsonSpan(content).None? ==> r == content
    ensures JsonSpan(content).Some? ==>
              r == content[JsonSpan(content).value.0 .. JsonSpan(content).value.1 + 1]
    ensures JsonSpan(content).Some? ==> |r| >= 2 && r[0] == '{' && r[|r| - 1] == '}'
  {
    match JsonSpan(content)
    case None => content
    case Some((i, j)) => content[i..j + 1]
  }

  /** Extracting from an extracted candidate changes nothing. */
  lemma JsonCandidateIdempotent(content: string)
    ensures JsonCandidate(JsonCandidate(content)) == JsonCandidate(content)
  {
    var span := JsonSpan(content);
    if span.Some? {
      var (i, j) := span.value;
      var c := content[i..j + 1];
      assert c[0] == '{' && c[|c| - 1] == '}';
      assert '{' !in c[..0];
      IndexOfIsFirst(c, '{', 0);
      assert c[|c| - 1 + 1..] == [];
      LastIndexOfIsLast(c, '}', |c| - 1);
      assert JsonSpan(c) == Some((0, |c| - 1));
      assert c[0..|c|] == c;
    }
  }

  /** Code-fenced output loses its fence and surrounding prose. */
  lemma JsonCandidateStripsFence()
    ensures JsonCandidate("```{\"a\":1}```") == "{\"a\":1}"
  {
    var s := "```{\"a\":1}```";
    assert s[..3] == "```";
    IndexOfIsFirst(s, '{', 3);
    assert s[10..] == "```";
    LastIndexOfIsLast(s, '}', 9);
    assert s[3..10] == "{\"a\":1}";
  }

  /** The greedy span takes in everything between two separate objects. */
  lemma JsonCandidateIsGreedy()
    ensures JsonCandidate("{} and {}") == "{} and {}"
  {
    var s := "{} and {}";
    IndexOfIsFirst(s, '{', 0);
    assert '}' !in s[9..];
    LastIndexOfIsLast(s, '}', 8);
    assert s[0..9] == s;
  }

  /** The placeholder step used by both the repair and the mock response: a one-second
      wait with no selector. */
  function WaitStep(name: string, meta: Option<map<string, string>>): (c: RpaActionConfig)
    ensures c.name == name && c.meta == meta
    ensures c.actionType == "default" && c.kind == "wait" && c.value == Some("1000")
    ensures c.selector == SelectorInfo("none", None, true)
  {
    NewActionConfig(name, "wait", NewSelector("none", None)).(value := Some("1000"), meta := meta)
  }

  const PARSE_FAILURE_PREFIX: string := "Failed to parse LLM response: "

  /** The response `parseRpaResponse` builds when decoding throws. */
  function RepairResponse(failure: Option<string>): LlmRpaResponse {
    LlmRpaResponse([WaitStep("Wait", None)], "error", Some(PARSE_FAILURE_PREFIX + MessageText(failure)))
  }

  /** A repair response is one no-op wait step marked as an error whose message names
      the decode failure. */
  predicate IsRepairResponse(r: LlmRpaResponse) {
    && |r.configuration| == 1
    && r.configuration[0] == RpaActionConfig("Wait", "default", "wait", SelectorInfo("none", None, true), Some("1000"), None)
    && r.status == "error"
    && r.message.Some?
    && |r.message.value| >= |PARSE_FAILURE_PREFIX|
    && r.message.value[..|PARSE_FAILURE_PREFIX|] == PARSE_FAILURE_PREFIX
  }

  /** `parseRpaResponse`: the decoded candidate, or the repair response. It returns a
      value for every input. */
  function ParseRpaResponse(content: string, decode: string -> DecodeResult): (r: LlmRpaResponse)
    ensures decode(JsonCandidate(content)).Decoded? ==> r == decode(JsonCandidate(content)).response
    ensures decode(JsonCandidate(content)).DecodeFailed? ==> IsRepairResponse(r)
    ensures decode(JsonCandidate(content)).DecodeFailed? ==>
              r.message == Some(PARSE_FAILURE_PREFIX + MessageText(decode(JsonCandidate(content)).message))
  {
    match decode(JsonCandidate(content))
    case Decoded(response) => response
    case DecodeFailed(m) =>
      var r := RepairResponse(m);
      assert r.message.value[..|PARSE_FAILURE_PREFIX|] == PARSE_FAILURE_PREFIX;
      r
  }

  /** Normalisation never yields an empty plan unless the decoded response itself
      is empty: every decode failure gives exactly one step. */
  lemma ParseNeverEmptyOnFailure(content: string, decode: string -> DecodeResult)
    requires decode(JsonCandidate(content)).DecodeFailed?
    ensures |ParseRpaResponse(content, decode).configuration| == 1
    ensures ParseRpaResponse(content, decode).configuration[0].kind == "wait"
    ensures ParseRpaResponse(content, decode).configuration[0].value == Some("1000")
    ensures ParseRpaResponse(content, decode).status == "error"
  {
  }

  // ----- mock response --------------------------------------------------------

  const MOCK_NOTE: string := "Configure API key in Settings > LLM Providers"
  const MOCK_MESSAGE: string := "Mock response - configure an LLM API key to generate real actions"

  /** `createMockResponse`: one wait step named after the first instruction. */
  function MockResponse(request: LlmRpaRequest): (r: LlmRpaResponse)
    ensures |r.configuration| == 1 && r.status == "success" && r.message == Some(MOCK_MESSAGE)
    ensures |request.actions| > 0 ==> r.configuration[0].name == "Example: " + request.actions[0].instruction
    ensures |request.actions| == 0 ==> r.configuration[0].name == "Example: wait"
    ensures r.configuration[0].kind == "wait" && r.configuration[0].value == Some("1000")
    ensures r.configuration[0].actionType == "default"
    ensures r.configuration[0].selector == SelectorInfo("none", None, true)
    ensures r.configuration[0].meta == Some(map["note" := MOCK_NOTE])
  {
    var instruction := if |request.actions| > 0 then request.actions[0].instruction else "wait";
    LlmRpaResponse([WaitStep("Example: " + instruction, Some(map["note" := MOCK_NOTE]))], "success", Some(MOCK_MESSAGE))
  }

  // ----- prompt ---------------------------------------------------------------

  /** The instruction lines of `buildPrompt`: "- " before each instruction, joined
      with newlines, in request order. */
  function InstructionBlock(request: LlmRpaRequest): (r: string)
    ensures |request.actions| == 0 ==> r == ""
    ensures |request.actions| == 1 ==> r == "- " + request.actions[0].instruction
  {
    JoinToString(seq(|request.actions|, k requires 0 <= k < |request.actions| => "- " + request.actions[k].instruction), "\n")
  }

  /** Single-line instructions can be read back from the block one per line. */
  lemma InstructionBlockLines(request: LlmRpaRequest)
    requires |request.actions| >= 1
    requires forall k :: 0 <= k < |request.actions| ==> '\n' !in request.actions[k].instruction
    ensures |Split(InstructionBlock(request), '\n')| == |request.actions|
    ensures forall k :: 0 <= k < |request.actions| ==>
              Split(InstructionBlock(request), '\n')[k] == "- " + request.actions[k].instruction
  {
    var lines := seq(|request.actions|, k requires 0 <= k < |request.actions| => "- " + request.actions[k].instruction);
    forall k | 0 <= k < |lines| ensures '\n' !in lines[k] {
      assert lines[k] == "- " + request.actions[k].instruction;
    }
    SplitJoinToString(lines, '\n');
  }

  // ----- adapters -------------------------------------------------------------

  /** The exception text each adapter uses for a non-2xx reply. Anthropic's also
      carries the body. */
  function HttpErrorMessage(p: Provider, status: HttpStatus, body: string): (r: string)
    ensures var tail := status.Render() + (if p == Anthropic then " - " + body else "");
            |r| > |tail| && r[|r| - |tail|..] == tail
  {
    var head := match p
      case Anthropic => "Anthropic API error: "
      case OpenAi => "OpenAI API error: "
      case Together => "Together AI API error: "
      case Custom => "Custom API error: ";
    var tail := status.Render() + (if p == Anthropic then " - " + body else "");
    assert (head + tail)[|head|..] == tail;
    head + tail
  }

  /** The four providers' messages are told apart by their first word. */
  lemma HttpErrorMessagesDistinct(p: Provider, q: Provider, status: HttpStatus, body: string)
    requires p != q
    ensures HttpErrorMessage(p, status, body) != HttpErrorMessage(q, status, body)
  {
    assert HttpErrorMessage(p, status, body)[0] != HttpErrorMessage(q, status, body)[0];
  }

  const INVALID_FORMAT: string := "Invalid response format"
  const ENDPOINT_MISSING: string := "Custom endpoint not configured"

  /** `callAnthropicApi`, `callOpenAIApi`, `callTogetherApi` after the POST: an exception
      before the completion text is read, a non-2xx status and a missing envelope key
      all raise;
      otherwise the completion text is normalised. */
  function ChatAdapter(p: Provider, exchange: Exchange, decode: string -> DecodeResult): (a: Attempt)
    requires p != Custom
    ensures exchange.Threw? ==> a == Raised(exchange.message)
    ensures exchange.Replied? && !exchange.status.IsSuccess() ==>
              a == Raised(Some(HttpErrorMessage(p, exchange.status, exchange.body)))
    ensures exchange.Replied? && exchange.status.IsSuccess() && exchange.completion.None? ==>
              a == Raised(Some(INVALID_FORMAT))
    ensures exchange.Replied? && exchange.status.IsSuccess() && exchange.completion.Some? ==>
              a == Returned(ParseRpaResponse(exchange.completion.value, decode))
  {
    match exchange
    case Threw(m) => Raised(m)
    case Replied(status, body, completion, _) =>
      if !status.IsSuccess() then Raised(Some(HttpErrorMessage(p, status, body)))
      else match completion
        case None => Raised(Some(INVALID_FORMAT))
        case Some(text) => Returned(ParseRpaResponse(text, decode))
  }

  /** Whether `callCustomApi` reaches the network: only with a non-blank endpoint. */
  predicate CustomSends(endpoint: string) {
    !IsBlank(endpoint)
  }

  /** `callCustomApi`: a blank endpoint raises before any request; otherwise a 2xx
      reply's typed body is the response, a failed conversion raising. */
  function CustomAdapter(endpoint: string, exchange: Exchange): (a: Attempt)
    ensures IsBlank(endpoint) ==> a == Raised(Some(ENDPOINT_MISSING))
    ensures CustomSends(endpoint) && exchange.Threw? ==> a == Raised(exchange.message)
    ensures CustomSends(endpoint) && exchange.Replied? && !exchange.status.IsSuccess() ==>
              a == Raised(Some(HttpErrorMessage(Custom, exchange.status, exchange.body)))
    ensures CustomSends(endpoint) && exchange.Replied? && exchange.status.IsSuccess() ==>
              match exchange.typedBody
              case Decoded(r) => a == Returned(r)
              case DecodeFailed(m) => a == Raised(m)
  {
    if IsBlank(endpoint) then Raised(Some(ENDPOINT_MISSING))
    else match exchange
      case Threw(m) => Raised(m)
      case Replied(status, body, _, typed) =>
        if !status.IsSuccess() then Raised(Some(HttpErrorMessage(Custom, status, body)))
        else match typed
          case Decoded(r) => Returned(r)
          case DecodeFailed(m) => Raised(m)
  }

  // ----- callLLMApi -----------------------------------------------------------

  const CALL_FAILURE_PREFIX: string := "API call failed: "

  /** The catch-all's response for an exception with the given message. */
  function FailureResponse(m: Option<string>): (r: LlmRpaResponse)
    ensures r.configuration == [] && r.status == "error"
    ensures r.message == Some(CALL_FAILURE_PREFIX + MessageText(m))
  {
    LlmRpaResponse([], "error", Some(CALL_FAILURE_PREFIX + MessageText(m)))
  }

  /** `callLLMApi`: loads the settings; without a usable key for the selected provider
      answers with the mock and sends nothing; otherwise dispatches to that provider's
      adapter and turns every exception into an error response. */
  function CallLlmApi(s: Settings, file: SettingsFile, request: LlmRpaRequest,
                      exchange: Exchange, decode: string -> DecodeResult): (c: CallResult)
    ensures c.settings == LoadSettings(s, file)
    ensures !HasValidApiKey(c.settings.data) ==> c.response == MockResponse(request) && c.sentTo.None?
    ensures HasValidApiKey(c.settings.data) ==>
              var p := SelectedProvider(c.settings.data);
              var a := if p == Custom then CustomAdapter(GetCustomEndpoint(c.settings.data), exchange)
                       else ChatAdapter(p, exchange, decode);
              && (a.Returned? ==> c.response == a.response)
              && (a.Raised? ==> c.response == FailureResponse(a.message))
              && (c.sentTo.Some? <==> p != Custom || CustomSends(GetCustomEndpoint(c.settings.data)))
              && (c.sentTo.Some? ==> c.sentTo.value == p)
  {
    var loaded := LoadSettings(s, file);
    var d := loaded.data;
    var p := SelectedProvider(d);
    match GetApiKey(d, p)
    case None => CallResult(loaded, MockResponse(request), None)
    case Some(_) =>
      var attempt := if p == Custom then CustomAdapter(GetCustomEndpoint(d), exchange)
                     else ChatAdapter(p, exchange, decode);
      var response := match attempt
        case Returned(r) => r
        case Raised(m) => FailureResponse(m);
      var sent := p != Custom || CustomSends(GetCustomEndpoint(d));
      CallResult(loaded, response, if sent then Some(p) else None)
  }

  /** Every outcome of a call is one of three shapes: the mock, a response produced by
      the provider path (decoded, or repaired by the normaliser), or the catch-all error
      with an empty plan. */
  lemma CallOutcomeShapes(s: Settings, file: SettingsFile, request: LlmRpaRequest,
                          exchange: Exchange, decode: string -> DecodeResult)
    ensures var c := CallLlmApi(s, file, request, exchange, decode);
            || c.response == MockResponse(request)
            || (c.response.status == "error" && c.response.configuration == []
                && c.response.message.Some?
                && |c.response.message.value| >= |CALL_FAILURE_PREFIX|
                && c.response.message.value[..|CALL_FAILURE_PREFIX|] == CALL_FAILURE_PREFIX)
            || IsRepairResponse(c.response)
            || (exists t :: decode(t).Decoded? && c.response == decode(t).response)
            || (exchange.Replied? && exchange.typedBody.Decoded? && c.response == exchange.typedBody.response)
  {
  }

  /** With an unreadable settings file, so the defaults and no usable key, the mock
      comes back and no request is sent: "Click search" gives one successful wait step. */
  lemma NoKeyScenario(s: Settings, exchange: Exchange, decode: string -> DecodeResult)
    ensures var request := LlmRpaRequest([NewAction("Click search")], "https://example.com", None);
            var c := CallLlmApi(s, Unreadable, request, exchange, decode);
            && c.sentTo.None?
            && c.response.status == "success"
            && |c.response.configuration| == 1
            && c.response.configuration[0].kind == "wait"
            && c.response.configuration[0].name == "Example: Click search"
  {
  }

  /** A blank Custom endpoint with a Custom key: no request, an error response naming
      the missing endpoint. */
  lemma BlankEndpointScenario(s: Settings, d: SettingsData, request: LlmRpaRequest,
                              exchange: Exchange, decode: string -> DecodeResult)
    requires d.selectedProvider == "CUSTOM" && !IsBlank(d.customApiKey) && IsBlank(d.customEndpoint)
    ensures var c := CallLlmApi(s, Parsed(d), request, exchange, decode);
            && c.sentTo.None?
            && c.response == FailureResponse(Some(ENDPOINT_MISSING))
  {
  }

  /** With a usable key for a chat provider, a non-2xx reply or a reply without the
      completion field ends in the catch-all error response. */
  lemma ChatFailuresAreErrors(s: Settings, file: SettingsFile, request: LlmRpaRequest,
                              exchange: Exchange, decode: string -> DecodeResult)
    requires var d := LoadSettings(s, file).data;
             HasValidApiKey(d) && SelectedProvider(d) != Custom
    requires exchange.Threw? || !exchange.status.IsSuccess() || exchange.completion.None?
    ensures var c := CallLlmApi(s, file, request, exchange, decode);
            && c.response.status == "error"
            && c.response.configuration == []
            && c.sentTo == Some(SelectedProvider(c.settings.data))
  {
  }
}

=== FILE: llm_settings.dfy ===
/** The settings record (`LLMSettingsData`) and the setters of the `LLMSettings`
    singleton. The singleton's mutable field becomes an immutable `Settings` value
    that every operation returns anew; the settings file becomes the last snapshot
    successfully written (`saved`) plus, on load, an abstract read outcome. */
module LlmSettings {
  import opened KotlinStd
  import opened LlmTypes

  const MIN_MAX_TOKENS: int := 100
  const MAX_MAX_TOKENS: int := 32000
  const MIN_TEMPERATURE: real := 0.0
  const MAX_TEMPERATURE: real := 2.0

  /** `LLMSettingsData`: what the settings file holds. The provider is kept as the
      stored string, which need not name a provider. */
  datatype SettingsData = SettingsData(
    selectedProvider: string,
    selectedModelId: string,
    anthropicApiKey: string,
    openaiApiKey: string,
    togetherApiKey: string,
    customApiKey: string,
    customEndpoint: string,
    maxTokens: int,
    temperature: real)

  /** The constructor defaults of `LLMSettingsData()`. */
  const Defaults: SettingsData :=
    SettingsData("ANTHROPIC", "claude-3-5-sonnet-20240620", "", "", "", "", "", 4096, 0.7)

  /** The singleton's state: the in-memory record and the last record written to disk
      (`None` until the first successful write). */
  datatype Settings = Settings(data: SettingsData, saved: Option<SettingsData>)

  /** The outcome of reading the settings file on load. */
  datatype SettingsFile =
    | Absent                      // the file does not exist
    | Parsed(data: SettingsData)  // read and decoded
    | Unreadable                  // reading or decoding threw

  /** The defaults select Anthropic with its 3.5 Sonnet model, 4096 tokens and
      temperature 0.7, and the default model is in the catalog. */
  lemma DefaultsValues()
    ensures SelectedProvider(Defaults) == Anthropic
    ensures FindModelById(Defaults.selectedModelId) == Some(AnthropicModels[3])
    ensures Defaults.maxTokens == 4096 && Defaults.temperature == 0.7
    ensures MIN_MAX_TOKENS <= Defaults.maxTokens <= MAX_MAX_TOKENS
    ensures MIN_TEMPERATURE <= Defaults.temperature <= MAX_TEMPERATURE
  {
  }

  /** The defaults hold no usable key for any provider. */
  lemma DefaultsHaveNoKey()
    ensures forall p: Provider :: GetApiKey(Defaults, p).None?
    ensures !HasValidApiKey(Defaults)
  {
  }

  /** The `selectedProvider` getter: the stored name parsed as a provider, falling
      back to Anthropic when it names none. */
  function SelectedProvider(d: SettingsData): (p: Provider)
    ensures ProviderValueOf(d.selectedProvider).None? ==> p == Anthropic
    ensures ProviderValueOf(d.selectedProvider).Some? ==> p.Name() == d.selectedProvider
  {
    ProviderValueOf(d.selectedProvider).OrElse(Anthropic)
  }

  /** The stored key field of a provider. */
  function KeyField(d: SettingsData, p: Provider): string {
    match p
    case Anthropic => d.anthropicApiKey
    case OpenAi => d.openaiApiKey
    case Together => d.togetherApiKey
    case Custom => d.customApiKey
  }

  /** Everything in the record except the four key fields. */
  predicate SameExceptKeys(a: SettingsData, b: SettingsData) {
    && a.selectedProvider == b.selectedProvider
    && a.selectedModelId == b.selectedModelId
    && a.customEndpoint == b.customEndpoint
    && a.maxTokens == b.maxTokens
    && a.temperature == b.temperature
  }

  predicate SameKeys(a: SettingsData, b: SettingsData) {
    forall p: Provider :: KeyField(a, p) == KeyField(b, p)
  }

  /** `saveSettings`: write the current record; a failed write is ignored and leaves
      the file as it was. */
  function Save(data: SettingsData, saved: Option<SettingsData>, writeOk: bool): (r: Settings)
    ensures r.data == data
    ensures writeOk ==> r.saved == Some(data)
    ensures !writeOk ==> r.saved == saved
  {
    Settings(data, if writeOk then Some(data) else saved)
  }

  /** `loadSettings`: a missing file keeps the current record, a decoded file replaces
      it as is (loaded values are not re-clamped), and a failed read or decode
      resets to the defaults. Nothing is written. */
  function LoadSettings(s: Settings, file: SettingsFile): (r: Settings)
    ensures r.saved == s.saved
    ensures file.Absent? ==> r.data == s.data
    ensures file.Parsed? ==> r.data == file.data
    ensures file.Unreadable? ==> r.data == Defaults
  {
    match file
    case Absent => s
    case Parsed(d) => Settings(d, s.saved)
    case Unreadable => Settings(Defaults, s.saved)
  }

  /** `getApiKey`: the provider's key, or null when it is blank. */
  function GetApiKey(d: SettingsData, p: Provider): (r: Option<string>)
    ensures r.None? <==> IsBlank(KeyField(d, p))
    ensures r.Some? ==> r.value == KeyField(d, p) && |r.value| > 0
  {
    var key := KeyField(d, p);
    if IsBlank(key) then None else Some(key)
  }

  /** `setApiKey`: replaces only that provider's key, then saves. */
  function SetApiKey(s: Settings, p: Provider, key: string, writeOk: bool): (r: Settings)
    ensures KeyField(r.data, p) == key
    ensures forall q: Provider :: q != p ==> KeyField(r.data, q) == KeyField(s.data, q)
    ensures SameExceptKeys(r.data, s.data)
    ensures r.saved == (if writeOk then Some(r.data) else s.saved)
  {
    var d := s.data;
    var d' := match p
      case Anthropic => d.(anthropicApiKey := key)
      case OpenAi => d.(openaiApiKey := key)
      case Together => d.(togetherApiKey := key)
      case Custom => d.(customApiKey := key);
    Save(d', s.saved, writeOk)
  }

  /** Reading a key back after setting it gives the key, unless it is blank. */
  lemma SetThenGetApiKey(s: Settings, p: Provider, key: string, writeOk: bool)
    ensures GetApiKey(SetApiKey(s, p, key, writeOk).data, p) == (if IsBlank(key) then None else Some(key))
    ensures forall q: Provider :: q != p ==> GetApiKey(SetApiKey(s, p, key, writeOk).data, q) == GetApiKey(s.data, q)
  {
  }

  /** `getCustomEndpoint`. */
  function GetCustomEndpoint(d: SettingsData): string {
    d.customEndpoint
  }

  /** `setCustomEndpoint`: replaces only the endpoint, then saves. */
  function SetCustomEndpoint(s: Settings, endpoint: string, writeOk: bool): (r: Settings)
    ensures GetCustomEndpoint(r.data) == endpoint
    ensures r.data == s.data.(customEndpoint := endpoint)
    ensures SameKeys(r.data, s.data)
    ensures r.saved == (if writeOk then Some(r.data) else s.saved)
  {
    Save(s.data.(customEndpoint := endpoint), s.saved, writeOk)
  }

  /** `setProvider`: stores the provider's name and, when its catalog is non-empty,
      selects its first model; Custom leaves the model id alone. Then saves. */
  function SetProvider(s: Settings, p: Provider, writeOk: bool): (r: Settings)
    ensures r.data.selectedProvider == p.Name()
    ensures SelectedProvider(r.data) == p
    ensures p != Custom ==> r.data.selectedModelId == ModelsForProvider(p)[0].id
    ensures p == Custom ==> r.data.selectedModelId == s.data.selectedModelId
    ensures SameKeys(r.data, s.data)
    ensures r.data.customEndpoint == s.data.customEndpoint
    ensures r.data.maxTokens == s.data.maxTokens && r.data.temperature == s.data.temperature
    ensures r.saved == (if writeOk then Some(r.data) else s.saved)
  {
    var d := s.data.(selectedProvider := p.Name());
    var models := ModelsForProvider(p);
    var d' := if |models| > 0 then d.(selectedModelId := models[0].id) else d;
    Save(d', s.saved, writeOk)
  }

  /** After choosing a non-Custom provider, the selected id names that provider's
      first catalog model. */
  lemma SetProviderSelectsCatalogModel(s: Settings, p: Provider, writeOk: bool)
    requires p != Custom
    ensures FindModelById(SetProvider(s, p, writeOk).data.selectedModelId) == Some(ModelsForProvider(p)[0])
  {
  }

  /** `setModel`: stores any id, in the catalog or not, then saves. */
  function SetModel(s: Settings, modelId: string, writeOk: bool): (r: Settings)
    ensures r.data == s.data.(selectedModelId := modelId)
    ensures SelectedProvider(r.data) == SelectedProvider(s.data)
    ensures r.saved == (if writeOk then Some(r.data) else s.saved)
  {
    Save(s.data.(selectedModelId := modelId), s.saved, writeOk)
  }

  /** `setMaxTokens`: stores the value clamped to [100, 32000], then saves. */
  function SetMaxTokens(s: Settings, tokens: int, writeOk: bool): (r: Settings)
    ensures MIN_MAX_TOKENS <= r.data.maxTokens <= MAX_MAX_TOKENS
    ensures MIN_MAX_TOKENS <= tokens <= MAX_MAX_TOKENS ==> r.data.maxTokens == tokens
    ensures tokens < MIN_MAX_TOKENS ==> r.data.maxTokens == MIN_MAX_TOKENS
    ensures tokens > MAX_MAX_TOKENS ==> r.data.maxTokens == MAX_MAX_TOKENS
    ensures r.data == s.data.(maxTokens := r.data.maxTokens)
    ensures r.saved == (if writeOk then Some(r.data) else s.saved)
  {
    Save(s.data.(maxTokens := CoerceIn(tokens, MIN_MAX_TOKENS, MAX_MAX_TOKENS)), s.saved, writeOk)
  }

  /** `setTemperature`: stores the value clamped to [0.0, 2.0], then saves. */
  function SetTemperature(s: Settings, temperature: real, writeOk: bool): (r: Settings)
    ensures MIN_TEMPERATURE <= r.data.temperature <= MAX_TEMPERATURE
    ensures MIN_TEMPERATURE <= temperature <= MAX_TEMPERATURE ==> r.data.temperature == temperature
    ensures temperature < MIN_TEMPERATURE ==> r.data.temperature == MIN_TEMPERATURE
    ensures temperature > MAX_TEMPERATURE ==> r.data.temperature == MAX_TEMPERATURE
    ensures r.data == s.data.(temperature := r.data.temperature)
    ensures r.saved == (if writeOk then Some(r.data) else s.saved)
  {
    Save(s.data.(temperature := CoerceInReal(temperature, MIN_TEMPERATURE, MAX_TEMPERATURE)), s.saved, writeOk)
  }

  /** The clamping examples: 50 and 1000000 tokens, temperatures -1 and 5. */
  lemma ClampExamples(s: Settings, writeOk: bool)
    ensures SetMaxTokens(s, 50, writeOk).data.maxTokens == 100
    ensures SetMaxTokens(s, 1000000, writeOk).data.maxTokens == 32000
    ensures SetMaxTokens(s, 2048, writeOk).data.maxTokens == 2048
    ensures SetTemperature(s, -1.0, writeOk).data.temperature == 0.0
    ensures SetTemperature(s, 5.0, writeOk).data.temperature == 2.0
  {
  }

  /** Setting the same value twice is the same as setting it once: a clamped value is
      already in range, so the second clamp leaves it alone. */
  lemma SettersIdempotent(s: Settings, tokens: int, temperature: real, writeOk: bool)
    ensures var once := SetMaxTokens(s, tokens, writeOk);
            SetMaxTokens(once, tokens, writeOk).data == once.data
    ensures var once := SetTemperature(s, temperature, writeOk);
            SetTemperature(once, temperature, writeOk).data == once.data
  {
    CoerceInIdempotent(tokens, MIN_MAX_TOKENS, MAX_MAX_TOKENS);
  }

  /** A successful save persists exactly the in-memory settings: loading the saved file
      back reproduces them. */
  lemma SavedSettingsReadBack(s: Settings, p: Provider, key: string, tokens: int)
    ensures var r := SetApiKey(s, p, key, true);
            r.saved.Some? && LoadSettings(r, Parsed(r.saved.value)).data == r.data
    ensures var r := SetMaxTokens(s, tokens, true);
            r.saved.Some? && LoadSettings(r, Parsed(r.saved.value)).data == r.data
  {
  }

  /** A loaded file is taken as is: an out-of-range value survives loading and is only
      clamped by the next explicit set. */
  lemma LoadDoesNotClamp(s: Settings)
    ensures LoadSettings(s, Parsed(Defaults.(maxTokens := 5))).data.maxTokens == 5
    ensures SetMaxTokens(LoadSettings(s, Parsed(Defaults.(maxTokens := 5))), 5, true).data.maxTokens == 100
  {
  }

  /** `hasValidApiKey`: the selected provider has a non-blank key. */
  predicate HasValidApiKey(d: SettingsData) {
    GetApiKey(d, SelectedProvider(d)).Some?
  }

  lemma HasValidApiKeyMeaning(d: SettingsData)
    ensures HasValidApiKey(d) <==> !IsBlank(KeyField(d, SelectedProvider(d)))
    ensures ProviderValueOf(d.selectedProvider).None? ==>
              (HasValidApiKey(d) <==> !IsBlank(d.anthropicApiKey))
  {
  }

  /** After choosing a provider, the key check looks at that provider's key. */
  lemma SetProviderKeyCheck(s: Settings, p: Provider, writeOk: bool)
    ensures HasValidApiKey(SetProvider(s, p, writeOk).data) <==> !IsBlank(KeyField(s.data, p))
  {
  }
}

=== FILE: llm_types.dfy ===
/** The plugin's shared vocabulary: the four providers, the model catalog with its
    two lookups, the wire records exchanged with a provider (request, response,
    action step, selector) and the per-generation execution record. */
module LlmTypes {
  import opened KotlinStd

  // ----- providers and models ------------------------------------------------

  datatype Provider = Anthropic | OpenAi | Together | Custom {
    /** `LLMProvider.name`, the spelling persisted in the settings file. */
    function Name(): string {
      match this
      case Anthropic => "ANTHROPIC"
      case OpenAi => "OPENAI"
      case Together => "TOGETHER"
      case Custom => "CUSTOM"
    }

    function DisplayName(): string {
      match this
      case Anthropic => "Anthropic"
      case OpenAi => "OpenAI"
      case Together => "Together AI"
      case Custom => "Custom API"
    }
  }

  /** `LLMProvider.valueOf(name)`: exact, case-sensitive match on the enum name;
      `None` where Kotlin throws `IllegalArgumentException`. */
  function ProviderValueOf(name: string): (r: Option<Provider>)
    ensures r.Some? ==> r.value.Name() == name
    ensures r.None? ==> forall p: Provider :: p.Name() != name
  {
    if name == "ANTHROPIC" then Some(Anthropic)
    else if name == "OPENAI" then Some(OpenAi)
    else if name == "TOGETHER" then Some(Together)
    else if name == "CUSTOM" then Some(Custom)
    else None
  }

  /** Every provider's name reads back as that provider. */
  lemma ProviderNameRoundTrip(p: Provider)
    ensures ProviderValueOf(p.Name()) == Some(p)
  {
  }

  datatype Model = Model(id: string, name: string, provider: Provider, contextWindow: int)

  const AnthropicModels: seq<Model> := [
    Model("claude-opus-4-20250514", "Claude Opus 4", Anthropic, 200000),
    Model("claude-sonnet-4-20250514", "Claude Sonnet 4", Anthropic, 200000),
    Model("claude-3-7-sonnet-20250219", "Claude 3.7 Sonnet", Anthropic, 200000),
    Model("claude-3-5-sonnet-20240620", "Claude 3.5 Sonnet", Anthropic, 200000),
    Model("claude-3-5-haiku-20241022", "Claude 3.5 Haiku", Anthropic, 200000)
  ]

  const OpenAiModels: seq<Model> := [
    Model("gpt-4o", "GPT-4o", OpenAi, 128000),
    Model("gpt-4o-mini", "GPT-4o Mini", OpenAi, 128000),
    Model("gpt-4-turbo", "GPT-4 Turbo", OpenAi, 128000),
    Model("gpt-3.5-turbo", "GPT-3.5 Turbo", OpenAi, 16000)
  ]

  const TogetherModels: seq<Model> := [
    Model("meta-llama/Meta-Llama-3.1-405B-Instruct-Turbo", "Llama 3.1 405B", Together, 128000),
    Model("meta-llama/Meta-Llama-3.1-70B-Instruct-Turbo", "Llama 3.1 70B", Together, 128000),
    Model("mistralai/Mixtral-8x22B-Instruct-v0.1", "Mixtral 8x22B", Together, 65536)
  ]

  /** The list `findModelById` searches: the three fixed catalogs, concatenated in order. */
  const AllModels: seq<Model> := AnthropicModels + OpenAiModels + TogetherModels

  /** `getModelsForProvider`: the provider's fixed catalog, empty for Custom. */
  function ModelsForProvider(p: Provider): (r: seq<Model>)
    ensures forall i :: 0 <= i < |r| ==> r[i].provider == p
    ensures p == Custom <==> |r| == 0
    ensures p == Anthropic ==> |r| == 5
    ensures p == OpenAi ==> |r| == 4
    ensures p == Together ==> |r| == 3
    ensures forall i :: 0 <= i < |r| ==> r[i] in AllModels
  {
    match p
    case Anthropic => AnthropicModels
    case OpenAi => OpenAiModels
    case Together => TogetherModels
    case Custom => []
  }

  /** Kotlin's `List.find { it.id == id }`: the first element with that id. */
  function FindById(models: seq<Model>, id: string): (r: Option<Model>)
    ensures r.Some? ==> r.value.id == id && r.value in models
    ensures r.Some? ==> exists k :: 0 <= k < |models| && models[k] == r.value
                                    && forall j :: 0 <= j < k ==> models[j].id != id
    ensures r.None? <==> forall k :: 0 <= k < |models| ==> models[k].id != id
    decreases |models|
  {
    if |models| == 0 then None
    else if models[0].id == id then Some(models[0])
    else
      var r := FindById(models[1..], id);
      assert r.Some? ==> (exists k :: 0 <= k < |models[1..]| && models[1..][k] == r.value
                                      && forall j :: 0 <= j < k ==> models[1..][j].id != id);
      if r.Some? then
        var k :| 0 <= k < |models[1..]| && models[1..][k] == r.value
                 && forall j :: 0 <= j < k ==> models[1..][j].id != id;
        assert models[k + 1] == r.value;
        assert forall j :: 0 <= j < k + 1 ==> models[j].id != id by {
          forall j | 0 <= j < k + 1 ensures models[j].id != id {
            if j > 0 { assert models[j] == models[1..][j - 1]; }
          }
        }
        r
      else
        assert forall k :: 0 <= k < |models| ==> models[k].id != id by {
          forall k | 0 <= k < |models| ensures models[k].id != id {
            if k > 0 { assert models[k] == models[1..][k - 1]; }
          }
        }
        r
  }

  /** `findModelById`: the model with that id among the three fixed catalogs. */
  function FindModelById(id: string): (r: Option<Model>)
    ensures r.Some? ==> r.value.id == id && r.value in AllModels && r.value.provider != Custom
    ensures r.None? <==> forall m :: m in AllModels ==> m.id != id
  {
    CatalogProviders();
    FindById(AllModels, id)
  }

  /** No catalog entry belongs to Custom; each list holds only its own provider's models. */
  lemma CatalogProviders()
    ensures forall m :: m in AllModels ==> m.provider != Custom
    ensures forall p: Provider, m :: m in ModelsForProvider(p) ==> m.provider == p
  {
    forall m | m in AllModels ensures m.provider != Custom {
      assert m in AnthropicModels || m in OpenAiModels || m in TogetherModels;
    }
  }

  /** The catalog is exactly the three provider lists, in declaration order. */
  lemma AllModelsIsProviderCatalogs()
    ensures AllModels == ModelsForProvider(Anthropic) + ModelsForProvider(OpenAi)
                         + ModelsForProvider(Together) + ModelsForProvider(Custom)
    ensures |AllModels| == 12
  {
  }

  /** Model ids are pairwise distinct across the whole catalog. */
  predicate DistinctIds(models: seq<Model>) {
    forall i, j :: 0 <= i < j < |models| ==> models[i].id != models[j].id
  }

  lemma CatalogIdsDistinct()
    ensures DistinctIds(AllModels)
  {
  }

  /** With distinct ids, looking a catalog model up by its own id finds that model. */
  lemma FindModelByOwnId(m: Model)
    requires m in AllModels
    ensures FindModelById(m.id) == Some(m)
  {
    CatalogIdsDistinct();
    var r := FindModelById(m.id);
    var k :| 0 <= k < |AllModels| && AllModels[k] == m;
    var k' :| 0 <= k' < |AllModels| && AllModels[k'] == r.value
              && forall j :: 0 <= j < k' ==> AllModels[j].id != m.id;
    assert k' <= k;
    if k' < k {
      assert AllModels[k'].id != AllModels[k].id;
    }
  }

  /** Each provider's first model (the one `setProvider` selects) is found again by id
      and belongs to that provider. */
  lemma FirstModelFound(p: Provider)
    requires p != Custom
    ensures FindModelById(ModelsForProvider(p)[0].id) == Some(ModelsForProvider(p)[0])
    ensures ModelsForProvider(p)[0].provider == p
  {
  }

  // ----- wire records ---------------------------------------------------------

  /** `SelectorInfo`: how a step locates its element. */
  datatype SelectorInfo = SelectorInfo(kind: string, value: Option<string>, isUnique: bool)

  /** `RpaActionConfig`: one generated automation step. */
  datatype RpaActionConfig = RpaActionConfig(
    name: string,
    actionType: string,
    kind: string,
    selector: SelectorInfo,
    value: Option<string>,
    meta: Option<map<string, string>>)

  /** `LLMAction`: one instruction of a request. */
  datatype LlmAction = LlmAction(instruction: string, actionType: string, meta: Option<map<string, string>>)

  /** `LLMRpaRequest`: the batched instructions plus the page they target. */
  datatype LlmRpaRequest = LlmRpaRequest(
    actions: seq<LlmAction>,
    sourceUrl: string,
    configuration: Option<seq<RpaActionConfig>>)

  /** `LLMRpaResponse`: what every path of the client hands back. */
  datatype LlmRpaResponse = LlmRpaResponse(
    configuration: seq<RpaActionConfig>,
    status: string,
    message: Option<string>)

  /** `SelectorInfo(type, value)` with the declared default for `isUnique`. */
  function NewSelector(kind: string, value: Option<string>): (s: SelectorInfo)
    ensures s.isUnique
    ensures s.kind == kind && s.value == value
  {
    SelectorInfo(kind, value, true)
  }

  /** `RpaActionConfig(name = …, type = …, selector = …)` with the declared defaults
      for the omitted fields. */
  function NewActionConfig(name: string, kind: string, selector: SelectorInfo): (c: RpaActionConfig)
    ensures c.actionType == "default" && c.value.None? && c.meta.None?
    ensures c.name == name && c.kind == kind && c.selector == selector
  {
    RpaActionConfig(name, "default", kind, selector, None, None)
  }

  /** `LLMAction(instruction)` with the declared defaults. */
  function NewAction(instruction: string): (a: LlmAction)
    ensures a.instruction == instruction && a.actionType == "default" && a.meta.None?
  {
    LlmAction(instruction, "default", None)
  }

  // ----- execution records ----------------------------------------------------

  datatype ExecutionStatus = Generating | Ready | Completed | Error {
    /** The enum constant's name. */
    function Name(): string {
      match this
      case Generating => "GENERATING"
      case Ready => "READY"
      case Completed => "COMPLETED"
      case Error => "ERROR"
    }
  }

  /** `LLMExecutionState`: one user-initiated generation. The creation time is passed
      in rather than read from the clock. */
  datatype ExecutionState = ExecutionState(
    instruction: string,
    status: ExecutionStatus,
    generatedActions: seq<RpaActionConfig>,
    error: Option<string>,
    timestamp: int)

  /** `LLMExecutionState(instruction, status)` with the declared defaults. */
  function NewExecutionState(instruction: string, status: ExecutionStatus, timestamp: int): (e: ExecutionState)
    ensures e.generatedActions == [] && e.error.None?
    ensures e.instruction == instruction && e.status == status && e.timestamp == timestamp
  {
    ExecutionState(instruction, status, [], None, timestamp)
  }
}

=== FILE: llmrpa_component.dfy ===
/** `LlmrpaComponent`: the panel's observable state and the transitions that change
    it. The state flows become one immutable `Component` record; each public
    operation and each asynchronous completion is one atomic `Event`. A generation
    returns a `Ticket` carrying the positional index it captured; its completion
    may be applied at any later point, in any order relative to others. */
module LlmrpaComponent {
  import opened KotlinStd
  import opened LlmTypes
  import opened LlmSettings
  import opened LlmApiClient

  /** The host's `ActiveTabData`, reduced to the fields the panel reads. */
  datatype Tab = Tab(tabId: string, title: string, url: Option<string>)

  /** The component's state flows. */
  datatype Component = Component(
    history: seq<ExecutionState>,
    isGenerating: bool,
    currentInstruction: string,
    availableTabs: seq<Tab>,
    selectedTab: Option<Tab>,
    errorMessage: Option<string>,
    showSettings: bool)

  /** The state right after construction. */
  const Initial: Component := Component([], false, "", [], None, None, false)

  /** What `generateActions` hands to its launched coroutine: the captured index and
      the instruction it was asked about. */
  datatype Ticket = Ticket(index: nat, instruction: string)

  datatype Launch = Launch(state: Component, ticket: Option<Ticket>)

  const BLANK_INSTRUCTION: string := "Please enter an instruction"
  const FALLBACK_URL: string := "https://example.com"

  /** `generateActions`: a blank instruction only sets the error message. Otherwise a
      GENERATING record is appended, its index (the old length) captured, the flag
      raised and the error cleared. */
  function GenerateActions(st: Component, now: int): (l: Launch)
    ensures IsBlank(st.currentInstruction) ==>
              l.ticket.None? && l.state == st.(errorMessage := Some(BLANK_INSTRUCTION))
    ensures !IsBlank(st.currentInstruction) ==>
              && l.ticket == Some(Ticket(|st.history|, st.currentInstruction))
              && l.state.history == st.history + [ExecutionState(st.currentInstruction, Generating, [], None, now)]
              && l.state.isGenerating
              && l.state.errorMessage.None?
              && l.state.currentInstruction == st.currentInstruction
              && l.state.availableTabs == st.availableTabs
              && l.state.selectedTab == st.selectedTab
              && l.state.showSettings == st.showSettings
  {
    var instruction := st.currentInstruction;
    if IsBlank(instruction) then
      Launch(st.(errorMessage := Some(BLANK_INSTRUCTION)), None)
    else
      var history := st.history + [NewExecutionState(instruction, Generating, now)];
      Launch(st.(isGenerating := true, errorMessage := None, history := history), Some(Ticket(|history| - 1, instruction)))
  }

  /** The request the coroutine sends: the one instruction, aimed at the selected tab's
      URL or the fallback page. */
  function RequestFor(instruction: string, selectedTab: Option<Tab>): (r: LlmRpaRequest)
    ensures r.actions == [NewAction(instruction)]
    ensures r.actions[0].instruction == instruction && r.actions[0].actionType == "default" && r.actions[0].meta.None?
    ensures r.configuration.None?
    ensures selectedTab.Some? && selectedTab.value.url.Some? ==> r.sourceUrl == selectedTab.value.url.value
    ensures selectedTab.None? || selectedTab.value.url.None? ==> r.sourceUrl == FALLBACK_URL
  {
    var url := if selectedTab.Some? then selectedTab.value.url else None;
    LlmRpaRequest([NewAction(instruction)], url.OrElse(FALLBACK_URL), None)
  }

  /** The prompt's instruction block for the component's request is the whole
      instruction after "- ", line breaks and all: a multi-line instruction is not
      split into several items. */
  lemma RequestInstructionBlock(instruction: string, selectedTab: Option<Tab>)
    ensures InstructionBlock(RequestFor(instruction, selectedTab)) == "- " + instruction
  {
  }

  /** `updateExecutionStatus`: rewrites slot `index` when it exists, keeping the old
      actions when the new list is empty and the old error when the new one is null. */
  function UpdateExecutionStatus(history: seq<ExecutionState>, index: nat, status: ExecutionStatus,
                                 actions: seq<RpaActionConfig>, error: Option<string>): (r: seq<ExecutionState>)
    ensures |r| == |history|
    ensures forall j :: 0 <= j < |history| && j != index ==> r[j] == history[j]
    ensures index >= |history| ==> r == history
    ensures index < |history| ==>
              && r[index].status == status
              && r[index].instruction == history[index].instruction
              && r[index].timestamp == history[index].timestamp
              && r[index].generatedActions == (if |actions| > 0 then actions else history[index].generatedActions)
              && r[index].error == (if error.Some? then error else history[index].error)
  {
    if index < |history| then
      var slot := history[index];
      history[index := slot.(status := status,
                            generatedActions := if |actions| > 0 then actions else slot.generatedActions,
                            error := if error.Some? then error else slot.error)]
    else history
  }

  const UNKNOWN_ERROR: string := "Unknown error"
  const UNKNOWN_EXCEPTION: string := "Unknown error occurred"

  /** The status a response of a known status maps to: READY exactly when it carries
      at least one step, regardless of whether it says "success" or "error". */
  function OutcomeStatus(response: LlmRpaResponse): (s: ExecutionStatus)
    ensures s == Ready <==> |response.configuration| > 0
    ensures s == Ready || s == Error
  {
    if |response.configuration| > 0 then Ready else Error
  }

  /** The coroutine's normal completion: a "success" or "error" response settles the
      slot by its step count (clearing the input when there are steps), any other status
      is an error; in every case the generating flag drops. */
  function Complete(st: Component, index: nat, response: LlmRpaResponse): (r: Component)
    ensures !r.isGenerating
    ensures |r.history| == |st.history|
    ensures forall j :: 0 <= j < |st.history| && j != index ==> r.history[j] == st.history[j]
    ensures index < |st.history| && (response.status == "success" || response.status == "error") ==>
              && r.history[index].status == OutcomeStatus(response)
              && (|response.configuration| > 0 ==> r.history[index].generatedActions == response.configuration)
              && (|response.configuration| == 0 ==>
                    r.history[index].generatedActions == st.history[index].generatedActions)
              && (|response.configuration| == 0 && response.message.Some? ==>
                    r.history[index].error == response.message)
              && (|response.configuration| > 0 || response.message.None? ==>
                    r.history[index].error == st.history[index].error)
    ensures index < |st.history| && response.status != "success" && response.status != "error" ==>
              && r.history[index].status == Error
              && r.history[index].error == Some(response.message.OrElse(UNKNOWN_ERROR))
              && r.history[index].generatedActions == st.history[index].generatedActions
    ensures index < |st.history| ==>
              && r.history[index].instruction == st.history[index].instruction
              && r.history[index].timestamp == st.history[index].timestamp
    ensures r.currentInstruction ==
              (if (response.status == "success" || response.status == "error") && |response.configuration| > 0
               then "" else st.currentInstruction)
    ensures r.availableTabs == st.availableTabs && r.selectedTab == st.selectedTab
    ensures r.errorMessage == st.errorMessage && r.showSettings == st.showSettings
  {
    if response.status == "success" || response.status == "error" then
      var nonEmpty := |response.configuration| > 0;
      var history := UpdateExecutionStatus(st.history, index, OutcomeStatus(response), response.configuration,
                                           if nonEmpty then None else response.message);
      st.(history := history, currentInstruction := if nonEmpty then "" else st.currentInstruction,
          isGenerating := false)
    else
      var history := UpdateExecutionStatus(st.history, index, Error, [], Some(response.message.OrElse(UNKNOWN_ERROR)));
      st.(history := history, isGenerating := false)
  }

  /** The coroutine's `catch` branch: the slot becomes ERROR with the exception's message. */
  function CompleteFailed(st: Component, index: nat, message: Option<string>): (r: Component)
    ensures !r.isGenerating
    ensures |r.history| == |st.history|
    ensures forall j :: 0 <= j < |st.history| && j != index ==> r.history[j] == st.history[j]
    ensures index < |st.history| ==>
              && r.history[index].status == Error
              && r.history[index].error == Some(message.OrElse(UNKNOWN_EXCEPTION))
              && r.history[index].generatedActions == st.history[index].generatedActions
              && r.history[index].instruction == st.history[index].instruction
              && r.history[index].timestamp == st.history[index].timestamp
    ensures r == st.(history := r.history, isGenerating := false)
  {
    st.(history := UpdateExecutionStatus(st.history, index, Error, [], Some(message.OrElse(UNKNOWN_EXCEPTION))),
        isGenerating := false)
  }

  /** `clearHistory`. */
  function ClearHistory(st: Component): (r: Component)
    ensures r.history == []
    ensures r == st.(history := [])
  {
    st.(history := [])
  }

  /** `clearError`. */
  function ClearError(st: Component): (r: Component)
    ensures r.errorMessage.None?
    ensures r == st.(errorMessage := None)
  {
    st.(errorMessage := None)
  }

  // ----- tab synchronisation ---------------------------------------------------

  /** `tabs.filter { it.url != null }`. */
  function BrowserTabs(tabs: seq<Tab>): (r: seq<Tab>)
    ensures forall t :: t in r <==> t in tabs && t.url.Some?
    ensures |r| <= |tabs|
    ensures (forall k :: 0 <= k < |tabs| ==> tabs[k].url.Some?) ==> r == tabs
    decreases |tabs|
  {
    if |tabs| == 0 then []
    else
      var rest := BrowserTabs(tabs[1..]);
      assert forall t :: t in tabs <==> t == tabs[0] || t in tabs[1..];
      if tabs[0].url.Some? then [tabs[0]] + rest else rest
  }

  /** The first kept tab is the first tab of the input that has a URL. */
  lemma {:induction false} BrowserTabsFirst(tabs: seq<Tab>)
    requires |BrowserTabs(tabs)| > 0
    ensures exists k :: 0 <= k < |tabs| && BrowserTabs(tabs)[0] == tabs[k] && tabs[k].url.Some?
                        && forall j :: 0 <= j < k ==> tabs[j].url.None?
    decreases |tabs|
  {
    if tabs[0].url.Some? {
      assert BrowserTabs(tabs)[0] == tabs[0];
    } else {
      var rest := tabs[1..];
      assert BrowserTabs(tabs) == BrowserTabs(rest);
      BrowserTabsFirst(rest);
      var k :| 0 <= k < |rest| && BrowserTabs(rest)[0] == rest[k] && rest[k].url.Some?
               && forall j :: 0 <= j < k ==> rest[j].url.None?;
      assert rest[k] == tabs[k + 1];
      forall j | 0 <= j < k + 1 ensures tabs[j].url.None? {
        if j > 0 { assert tabs[j] == rest[j - 1]; }
      }
    }
  }

  /** Filtering a concatenation filters each part and keeps them in order; with the
      one-tab case this fixes the result to the tabs with a URL in their original order. */
  lemma {:induction false} BrowserTabsConcat(a: seq<Tab>, b: seq<Tab>)
    ensures BrowserTabs(a + b) == BrowserTabs(a) + BrowserTabs(b)
    decreases |a|
  {
    if |a| > 0 {
      assert (a + b)[0] == a[0];
      assert (a + b)[1..] == a[1..] + b;
      BrowserTabsConcat(a[1..], b);
    } else {
      assert a + b == b;
    }
  }

  /** One tab is kept exactly when it has a URL. */
  lemma BrowserTabsSingle(t: Tab)
    ensures BrowserTabs([t]) == if t.url.Some? then [t] else []
  {
    assert [t][1..] == [];
  }

  /** Whether some tab has the given id. */
  predicate HasTabId(tabs: seq<Tab>, id: string) {
    exists k :: 0 <= k < |tabs| && tabs[k].tabId == id
  }

  /** The block collecting `activeTabs` in `init`: keep the tabs with a URL, drop a
      selection whose id is gone, and select the first tab when nothing is selected. */
  function SyncTabs(st: Component, tabs: seq<Tab>): (r: Component)
    ensures r.availableTabs == BrowserTabs(tabs)
    ensures r.selectedTab.None? <==> |r.availableTabs| == 0
    ensures r.selectedTab.Some? ==> HasTabId(r.availableTabs, r.selectedTab.value.tabId)
    ensures st.selectedTab.Some? && HasTabId(r.availableTabs, st.selectedTab.value.tabId) ==>
              r.selectedTab == st.selectedTab
    ensures (st.selectedTab.None? || !HasTabId(r.availableTabs, st.selectedTab.value.tabId)) && |r.availableTabs| > 0
            ==> r.selectedTab == Some(r.availableTabs[0])
    ensures r == st.(availableTabs := r.availableTabs, selectedTab := r.selectedTab)
  {
    var browser := BrowserTabs(tabs);
    var kept := if st.selectedTab.Some? && !HasTabId(browser, st.selectedTab.value.tabId) then None
                else st.selectedTab;
    var selected := if kept.None? && |browser| > 0 then Some(browser[0]) else kept;
    assert selected.Some? && |browser| > 0 ==> HasTabId(browser, browser[0].tabId);
    st.(availableTabs := browser, selectedTab := selected)
  }

  // ----- events and traces ------------------------------------------------------

  /** Everything that changes the state: the public operations and the coroutines'
      completions. */
  datatype Event =
    | UpdateInstruction(text: string)
    | Generate(now: int)
    | Completion(index: nat, response: LlmRpaResponse)
    | CompletionFailed(index: nat, message: Option<string>)
    | Clear
    | DismissError
    | TabsChanged(tabs: seq<Tab>)
    | SelectTab(tab: Tab)
    | ToggleSettings
    | QuickExample(example: string)

  function Step(st: Component, ev: Event): Component {
    match ev
    case UpdateInstruction(text) => st.(currentInstruction := text)
    case Generate(now) => GenerateActions(st, now).state
    case Completion(i, response) => Complete(st, i, response)
    case CompletionFailed(i, m) => CompleteFailed(st, i, m)
    case Clear => ClearHistory(st)
    case DismissError => ClearError(st)
    case TabsChanged(tabs) => SyncTabs(st, tabs)
    case SelectTab(tab) => st.(selectedTab := Some(tab))
    case ToggleSettings => st.(showSettings := !st.showSettings)
    case QuickExample(example) => st.(currentInstruction := example)
  }

  function Run(st: Component, events: seq<Event>): Component
    decreases |events|
  {
    if |events| == 0 then st else Run(Step(st, events[0]), events[1..])
  }

  /** No record is in the COMPLETED state. */
  predicate NoneCompleted(history: seq<ExecutionState>) {
    forall k :: 0 <= k < |history| ==> history[k].status != Completed
  }

  /** Only generations and completions create or settle records, and they only ever
      write GENERATING, READY or ERROR. */
  lemma StepNeverCompletes(st: Component, ev: Event)
    requires NoneCompleted(st.history)
    ensures NoneCompleted(Step(st, ev).history)
  {
  }

  /** No sequence of events ever reaches COMPLETED. */
  lemma {:induction false} RunNeverCompletes(st: Component, events: seq<Event>)
    requires NoneCompleted(st.history)
    ensures NoneCompleted(Run(st, events).history)
    decreases |events|
  {
    if |events| > 0 {
      StepNeverCompletes(st, events[0]);
      RunNeverCompletes(Step(st, events[0]), events[1..]);
    }
  }

  /** `history` extends `before`: at least as long, and every earlier record still has
      its instruction and creation time. */
  predicate KeepsIdentities(before: seq<ExecutionState>, history: seq<ExecutionState>) {
    && |before| <= |history|
    && forall k :: 0 <= k < |before| ==>
         history[k].instruction == before[k].instruction && history[k].timestamp == before[k].timestamp
  }

  lemma StepKeepsIdentities(st: Component, ev: Event)
    requires !ev.Clear?
    ensures KeepsIdentities(st.history, Step(st, ev).history)
  {
  }

  /** Without a clear, no event moves or renames a record: a slot index keeps naming the
      generation that captured it. */
  lemma {:induction false} RunKeepsIdentities(st: Component, events: seq<Event>)
    requires forall k :: 0 <= k < |events| ==> !events[k].Clear?
    ensures KeepsIdentities(st.history, Run(st, events).history)
    decreases |events|
  {
    if |events| > 0 {
      var next := Step(st, events[0]);
      StepKeepsIdentities(st, events[0]);
      RunKeepsIdentities(next, events[1..]);
    }
  }

  /** A completion applied after any clear-free sequence of events settles the very
      record its generation appended, whatever else completed in between. */
  lemma CompletionHitsItsOwnRecord(st: Component, now: int, events: seq<Event>, response: LlmRpaResponse)
    requires !IsBlank(st.currentInstruction)
    requires forall k :: 0 <= k < |events| ==> !events[k].Clear?
    ensures var l := GenerateActions(st, now);
            var before := Run(l.state, events);
            var after := Complete(before, l.ticket.value.index, response);
            && l.ticket.value.index < |after.history|
            && after.history[l.ticket.value.index].instruction == l.ticket.value.instruction
            && after.history[l.ticket.value.index].timestamp == now
  {
    var l := GenerateActions(st, now);
    RunKeepsIdentities(l.state, events);
  }

  /** Completions of different slots commute: the arrival order does not matter. */
  lemma CompletionsCommute(st: Component, i: nat, a: LlmRpaResponse, j: nat, b: LlmRpaResponse)
    requires i != j
    ensures Complete(Complete(st, i, a), j, b) == Complete(Complete(st, j, b), i, a)
  {
  }

  /** The generating flag is single: the first completion drops it although another
      record is still GENERATING. */
  lemma FlagDropsEarly(st: Component, now1: int, now2: int, response: LlmRpaResponse)
    requires !IsBlank(st.currentInstruction)
    requires response.status == "error" && response.configuration == []
    ensures var s1 := GenerateActions(st, now1).state;
            var s2 := GenerateActions(s1, now2).state;
            var s3 := Complete(s2, |st.history| + 1, response);
            && !s3.isGenerating
            && s3.history[|st.history|].status == Generating
  {
  }

  /** The positional index is not a stable identity: after a clear and a new
      generation, a completion that belongs to a cleared record lands on the new one. */
  lemma StaleCompletionOverwrites(st: Component, now1: int, now2: int, stale: LlmRpaResponse)
    requires !IsBlank(st.currentInstruction) && st.history == []
    requires stale.status == "success" && |stale.configuration| > 0
    ensures var first := GenerateActions(st, now1);
            var second := GenerateActions(ClearHistory(first.state), now2);
            var after := Complete(second.state, first.ticket.value.index, stale);
            && first.ticket.value.index == second.ticket.value.index == 0
            && after.history[0].timestamp == now2
            && after.history[0].status == Ready
            && after.history[0].generatedActions == stale.configuration
  {
  }

  /** A completion for a slot that no longer exists changes only the flag and the input. */
  lemma CompletionAfterClearIsNoOp(st: Component, index: nat, response: LlmRpaResponse)
    ensures Complete(ClearHistory(st), index, response).history == []
  {
  }

  // ----- a generation end to end ------------------------------------------------

  /** Without a usable key, a generation runs through the client to the mock: nothing
      is sent, the new record becomes READY holding exactly the mock's one wait step,
      the input is cleared and the flag drops. */
  lemma GenerationWithoutKey(st: Component, now: int, s: Settings, file: SettingsFile,
                             exchange: Exchange, decode: string -> DecodeResult)
    requires !IsBlank(st.currentInstruction)
    requires !HasValidApiKey(LoadSettings(s, file).data)
    ensures var l := GenerateActions(st, now);
            var request := RequestFor(l.ticket.value.instruction, l.state.selectedTab);
            var c := CallLlmApi(s, file, request, exchange, decode);
            var after := Complete(l.state, l.ticket.value.index, c.response);
            && c.sentTo.None?
            && |after.history| == |st.history| + 1
            && after.history[|st.history|].status == Ready
            && after.history[|st.history|].generatedActions == MockResponse(request).configuration
            && |after.history[|st.history|].generatedActions| == 1
            && after.history[|st.history|].generatedActions[0].kind == "wait"
            && after.history[|st.history|].generatedActions[0].name == "Example: " + st.currentInstruction
            && after.history[|st.history|].error.None?
            && after.currentInstruction == ""
            && !after.isGenerating
  {
  }

  /** With a Custom key but a blank endpoint, a generation ends without sending anything:
      the new record becomes ERROR with "API call failed: Custom endpoint not configured",
      holds no steps, and the input is kept. */
  lemma GenerationBlankEndpoint(st: Component, now: int, s: Settings, file: SettingsFile,
                                exchange: Exchange, decode: string -> DecodeResult)
    requires !IsBlank(st.currentInstruction)
    requires var d := LoadSettings(s, file).data;
             HasValidApiKey(d) && SelectedProvider(d) == Custom && IsBlank(GetCustomEndpoint(d))
    ensures var l := GenerateActions(st, now);
            var request := RequestFor(l.ticket.value.instruction, l.state.selectedTab);
            var c := CallLlmApi(s, file, request, exchange, decode);
            var after := Complete(l.state, l.ticket.value.index, c.response);
            && c.sentTo.None?
            && |after.history| == |st.history| + 1
            && after.history[|st.history|].status == Error
            && after.history[|st.history|].error == Some(CALL_FAILURE_PREFIX + ENDPOINT_MISSING)
            && after.history[|st.history|].generatedActions == []
            && after.currentInstruction == st.currentInstruction
            && !after.isGenerating
  {
  }

  /** Starting from the initial state, the history is only ever GENERATING, READY or ERROR. */
  lemma ReachableNeverCompleted(events: seq<Event>)
    ensures NoneCompleted(Run(Initial, events).history)
  {
    RunNeverCompletes(Initial, events);
  }
}

=== FILE: llmrpa_content.dfy ===
/** The pure pieces of the panel's rendering (`LlmrpaContent`): the relative
    timestamp, the newest-first history order, the Execute button's enable rule,
    the status label and the configuration status card's title. The clock is the
    `now` parameter. */
module LlmrpaContent {
  import opened KotlinStd
  import opened LlmTypes
  import opened LlmSettings
  import opened LlmrpaComponent

  const MINUTE_MS: int := 60000
  const HOUR_MS: int := 3600000
  const DAY_MS: int := 86400000

  /** `now - timestamp` computed in `Long` arithmetic. */
  function ElapsedMs(timestamp: int, now: int): (d: int)
    requires IsLong(timestamp) && IsLong(now)
    ensures IsLong(d)
    ensures IsLong(now - timestamp) ==> d == now - timestamp
    ensures (d - (now - timestamp)) % TWO_64 == 0
  {
    WrapLong(now - timestamp)
  }

  /** `text` is the decimal number `n`, written without leading zeros, followed by
      `suffix`. */
  predicate ReadsAs(text: string, n: nat, suffix: string) {
    && |text| > |suffix|
    && text[|text| - |suffix|..] == suffix
    && (forall k :: 0 <= k < |text| - |suffix| ==> IsDigit(text[k]))
    && (|text| - |suffix| > 1 ==> text[0] != '0')
    && ParseDecimal(text[..|text| - |suffix|]) == n
  }

  /** `n` whole units of `unit` milliseconds fit in `d`, and no more. */
  predicate WholeUnits(d: int, n: nat, unit: int) {
    n * unit <= d < (n + 1) * unit
  }

  /** A rendered count followed by a suffix reads back as that count. */
  lemma NumberThenSuffixReadsAs(n: nat, suffix: string)
    ensures ReadsAs(NatToString(n) + suffix, n, suffix)
  {
    var t := NatToString(n) + suffix;
    assert t[..|t| - |suffix|] == NatToString(n);
    assert t[|t| - |suffix|..] == suffix;
    NatToStringRoundTrip(n);
  }

  /** A label that reads as `n` is exactly the string template `"${n}" + suffix`, so
      `ReadsAs` fixes the text completely. */
  lemma ReadsAsFixesText(text: string, n: nat, suffix: string)
    requires ReadsAs(text, n, suffix)
    ensures text == NatToString(n) + suffix
  {
    var digits := text[..|text| - |suffix|];
    ParseDecimalCanonical(digits);
    assert text == digits + text[|text| - |suffix|..];
  }

  /** The quotient is the number of whole units, and at least one unit fits. */
  lemma QuotientIsWholeUnits(diff: int, unit: int)
    requires 0 < unit <= diff
    ensures WholeUnits(diff, diff / unit, unit) && diff / unit >= 1
  {
  }

  /** "<count><suffix>" for the number of whole units in `diff`. */
  function Ago(diff: int, unit: int, suffix: string): (r: string)
    requires 0 < unit <= diff
    ensures ReadsAs(r, diff / unit, suffix) && WholeUnits(diff, diff / unit, unit) && diff / unit >= 1
    ensures IsDigit(r[0])
  {
    NumberThenSuffixReadsAs(diff / unit, suffix);
    QuotientIsWholeUnits(diff, unit);
    NatToString(diff / unit) + suffix
  }

  /** `formatTimestamp`: "just now" exactly when under a minute has passed (also for
      a timestamp in the future); otherwise a count that reads back as the whole number
      of the largest unit that fits: 1-59 minutes, 1-23 hours, or days. */
  function FormatTimestamp(timestamp: int, now: int): (r: string)
    requires IsLong(timestamp) && IsLong(now)
    ensures r == "just now" <==> ElapsedMs(timestamp, now) < MINUTE_MS
    ensures var d := ElapsedMs(timestamp, now);
            MINUTE_MS <= d < HOUR_MS ==>
              exists n: nat :: ReadsAs(r, n, "m ago") && WholeUnits(d, n, MINUTE_MS) && 1 <= n <= 59
    ensures var d := ElapsedMs(timestamp, now);
            HOUR_MS <= d < DAY_MS ==>
              exists n: nat :: ReadsAs(r, n, "h ago") && WholeUnits(d, n, HOUR_MS) && 1 <= n <= 23
    ensures var d := ElapsedMs(timestamp, now);
            DAY_MS <= d ==>
              exists n: nat :: ReadsAs(r, n, "d ago") && WholeUnits(d, n, DAY_MS) && 1 <= n
  {
    var diff := ElapsedMs(timestamp, now);
    assert "just now"[0] == 'j';
    if diff < MINUTE_MS then "just now"
    else if diff < HOUR_MS then Ago(diff, MINUTE_MS, "m ago")
    else if diff < DAY_MS then Ago(diff, HOUR_MS, "h ago")
    else Ago(diff, DAY_MS, "d ago")
  }

  /** A label within the hour, concretely: 90 seconds ago reads "1m ago". */
  lemma FormatTimestampExample()
    ensures FormatTimestamp(0, 90000) == "1m ago"
    ensures FormatTimestamp(1000, 0) == "just now"
  {
    assert NatToString(1) == "1";
  }

  /** `history.reversed()`: the order the cards are listed in. */
  function NewestFirst(history: seq<ExecutionState>): (r: seq<ExecutionState>)
    ensures |r| == |history|
    ensures forall k :: 0 <= k < |history| ==> r[k] == history[|history| - 1 - k]
  {
    seq(|history|, k requires 0 <= k < |history| => history[|history| - 1 - k])
  }

  /** Reversing the display order gives back the stored order. */
  lemma NewestFirstInvolution(history: seq<ExecutionState>)
    ensures NewestFirst(NewestFirst(history)) == history
  {
  }

  /** The record a generation appends is the first card shown. */
  lemma NewGenerationShownFirst(st: Component, now: int)
    requires !IsBlank(st.currentInstruction)
    ensures var h := GenerateActions(st, now).state.history;
            NewestFirst(h)[0] == ExecutionState(st.currentInstruction, Generating, [], None, now)
  {
  }

  /** The Execute button's `enabled` expression. */
  predicate ExecuteEnabled(st: Component) {
    !IsBlank(st.currentInstruction) && st.selectedTab.Some? && !st.isGenerating
  }

  /** A click on an enabled button always starts a generation, and the button is then
      disabled until a completion arrives. */
  lemma ExecuteEnabledStartsGeneration(st: Component, now: int)
    requires ExecuteEnabled(st)
    ensures GenerateActions(st, now).ticket.Some?
    ensures !ExecuteEnabled(GenerateActions(st, now).state)
  {
  }

  /** After any completion the button's state depends only on the input and the tab:
      a response with steps clears the input and so leaves the button disabled, while
      one without steps keeps the instruction, so the user can retry at once. */
  lemma ExecuteEnabledAfterCompletion(st: Component, index: nat, response: LlmRpaResponse)
    ensures var r := Complete(st, index, response);
            ExecuteEnabled(r) <==> !IsBlank(r.currentInstruction) && st.selectedTab.Some?
    ensures (response.status == "success" || response.status == "error") && |response.configuration| > 0 ==>
              !ExecuteEnabled(Complete(st, index, response))
    ensures (|response.configuration| == 0 || (response.status != "success" && response.status != "error"))
            && !IsBlank(st.currentInstruction) && st.selectedTab.Some? ==>
              ExecuteEnabled(Complete(st, index, response))
  {
  }

  const NO_KEY_TITLE: string := "No API key configured"
  const PROVIDER_TITLE_PREFIX: string := "LLM Provider: "

  /** The title of the configuration status card: the selected provider's display
      name when it has a usable key, otherwise the missing-key notice. */
  function StatusCardTitle(d: SettingsData): (r: string)
    ensures HasValidApiKey(d) ==> r == PROVIDER_TITLE_PREFIX + SelectedProvider(d).DisplayName()
    ensures r == NO_KEY_TITLE <==> !HasValidApiKey(d)
  {
    assert (PROVIDER_TITLE_PREFIX + SelectedProvider(d).DisplayName())[0] != NO_KEY_TITLE[0];
    if HasValidApiKey(d) then PROVIDER_TITLE_PREFIX + SelectedProvider(d).DisplayName() else NO_KEY_TITLE
  }

  /** Providers have distinct display names, so the title tells them apart. */
  lemma DisplayNamesDistinct(p: Provider, q: Provider)
    requires p != q
    ensures p.DisplayName() != q.DisplayName()
  {
  }

  /** After storing a non-blank key for a provider and selecting it, the card names
      that provider. */
  lemma StatusCardAfterSetup(s: Settings, p: Provider, key: string, writeOk: bool)
    requires !IsBlank(key)
    ensures var d := SetProvider(SetApiKey(s, p, key, writeOk), p, writeOk).data;
            StatusCardTitle(d) == PROVIDER_TITLE_PREFIX + p.DisplayName()
  {
    var s1 := SetApiKey(s, p, key, writeOk);
    SetProviderKeyCheck(s1, p, writeOk);
  }

  /** `status.name.lowercase().replaceFirstChar { it.uppercase() }`. */
  function StatusLabel(s: ExecutionStatus): string {
    CapitalizeFirst(Lowercase(s.Name()))
  }

  /** The four labels. */
  lemma StatusLabels()
    ensures StatusLabel(Generating) == "Generating"
    ensures StatusLabel(Ready) == "Ready"
    ensures StatusLabel(Completed) == "Completed"
    ensures StatusLabel(Error) == "Error"
  {
    assert Lowercase("GENERATING") == "generating";
    assert Lowercase("READY") == "ready";
    assert Lowercase("COMPLETED") == "completed";
    assert Lowercase("ERROR") == "error";
  }
}
